=== FILE: README.md ===
# Anti-detection clothing storefront, modelled in Dafny

This project models the client-side logic of a Next.js storefront for "privacy"
clothing: garments printed with patterns meant to confuse person detectors.
Each page's state and event handlers are modelled, along with the two API routes
that score a design against a detector:

- **Shop page**: filters the product catalogue and keeps a cart. Adding a product
  merges it into an existing line with the same product, size and colour.
- **Design page**: a canvas of star, Saturn, moon and circle elements, which can be
  dropped, moved, resized, rotated, recoloured and deleted, plus a mock "test" score.
- **Live demo**: consumes a detection stream and keeps a ten-entry history of changes
  in the number of people seen.
- **Test page**: sends a photo to the inference route and maps its answer to a result
  with boxes, a badge and a confidence colour.
- **Zoom modal and preview**: show a saved design enlarged or small.
- **Order dialog**: prices a saved design; a design that passed its test costs 20% more.
- **Checkout page**: fills the payment form from a saved card and computes tax and
  total.
- **Home page**: a four-image carousel and the typing headline.
- **API routes**: `/api/inference` proxies a detector, with a mock fallback.
  `/api/test-design` generates an image, runs inference on it and turns the result
  into a "confusion score".

The model follows the source's form:

- A page whose handlers update React state is a class. Its fields are the state
  variables, and each handler is a method with `modifies` and a postcondition that
  gives the new state.
- The pure parts are functions: the filters, cart folds, score formula, route
  bodies and text formatting.
- Each method is tied to a function, and lemmas prove what the page promises:
  - adding to the cart keeps line keys unique and raises the item count by the
    quantity added;
  - edits never take an element's size out of 20..100;
  - a logged history entry can be read back as its count;
  - the confusion score stays in 0..100 and never rises with more or surer
    detections;
  - a cart-item id decodes back to its design, size and colour.

Some things outside the code become parameters: clocks (`Date.now()`,
`toLocaleTimeString()`), `Math.random()` draws, bounding rectangles, and the
results of the `fetch` calls a route makes.

Numbers:

- Prices and confidences are exact `real`s.
- `Math.round(x)` is `floor(x + 0.5)`.
- Zoom factors are whole tenths, so the zoom modal's 0.5..3 range is 5..30.
- Canvas coordinates and sizes are integers.

## Model

| member | source | states |
|---|---|---|
| Shop.FilterProducts | src/app/shop/page.tsx:40-47 | a product is shown iff it is in the catalogue and matches the search term (name or description, case-insensitive), the category and the privacy level; the shown list keeps catalogue order (a subsequence) |
| Shop.FilterCounts | src/app/shop/page.tsx:40-47 | a kept product appears in the shown list exactly as many times as in the catalogue, a dropped one never |
| Shop.NoFilterKeepsAll | src/app/shop/page.tsx:40-47 | an empty term with both selects on 'all' shows the whole catalogue unchanged |
| Shop.EmptySearchMatchesAll | src/app/shop/page.tsx:41-42 | every product matches the empty search term, since every string includes "" |
| Shop.HoodieFilterOf | src/app/shop/page.tsx:40-47 | in a five-product catalogue with hoodies exactly 2nd and 5th, the hoodie filter shows those two, in order |
| Shop.HoodieFilter | src/data/mockData.ts:3-65 | on the real catalogue, the hoodie filter shows Ghost Mode Hoodie then Digital Disruptor Hoodie |
| Shop.ItemCountReplace | src/app/shop/page.tsx:101-103 | replacing one line changes the item count by the difference of the quantities |
| Shop.TotalPriceReplace | src/app/shop/page.tsx:97-99 | replacing one line changes the total by the difference of the two line amounts |
| Shop.ItemCountAppend | src/app/shop/page.tsx:97-103 | appending a line adds its quantity to the count and its amount to the total |
| Shop.RemoveAtTotals | src/app/shop/page.tsx:92-103 | removing line i takes exactly its quantity off the count and its amount off the total |
| Shop.ItemCountAtLeastLines | src/app/shop/page.tsx:101-103 | with every quantity at least 1, the item count is at least the number of lines |
| Shop.FindLine | src/app/shop/page.tsx:52-56 | returns the first line with the given (product id, size, colour), or none when no line has it |
| Shop.Added | src/app/shop/page.tsx:52-73 | a matching line gets its quantity raised by the amount added; otherwise a new line with that product, size, colour and quantity is appended |
| Shop.AddedKeepsInvariant | src/app/shop/page.tsx:52-73 | adding keeps line keys unique and every quantity positive |
| Shop.AddedItemCount | src/app/shop/page.tsx:49-79 | adding q items raises the cart's item count by exactly q |
| Shop.MergedTotalPrice | src/app/shop/page.tsx:58-63 | merging q more items into line i raises the total by q times that line's price |
| Shop.AddedTotalPrice | src/app/shop/page.tsx:49-79 | adding q items raises the total by q times the unit price of the merged or new line |
| Shop.RemoveAt | src/app/shop/page.tsx:92-95 | line `index` is dropped and the others keep their order; an index past the end removes nothing |
| Shop.RemoveAtKeepsUnique | src/app/shop/page.tsx:92-95 | removal keeps line keys unique |
| Shop.ShopPage.constructor | src/app/shop/page.tsx:17-25 | the page starts with the mock catalogue, an empty cart, empty filters and quantity 1 |
| Shop.ShopPage.BadgeShownIffNonEmpty | src/app/shop/page.tsx:130 | the cart badge (item count > 0) shows exactly when the cart has a line |
| Shop.ShopPage.SetSearchTerm | src/app/shop/page.tsx:230 | sets the term and nothing else |
| Shop.ShopPage.SetCategory | src/app/shop/page.tsx:241 | sets the category and nothing else |
| Shop.ShopPage.SetPrivacyLevel | src/app/shop/page.tsx:256 | sets the privacy level and nothing else |
| Shop.ShopPage.ClearFilters | src/app/shop/page.tsx:268-272 | resets the three filters, after which the whole catalogue is shown |
| Shop.ShopPage.SelectProduct | src/app/shop/page.tsx:323 | opens the product dialog and changes nothing else |
| Shop.ShopPage.SelectSize | src/app/shop/page.tsx:341 | sets the size and nothing else |
| Shop.ShopPage.SelectColor | src/app/shop/page.tsx:356 | sets the colour and nothing else |
| Shop.ShopPage.DecrementQuantity | src/app/shop/page.tsx:372 | lowers the dialog quantity, never below 1 |
| Shop.ShopPage.IncrementQuantity | src/app/shop/page.tsx:380 | raises the dialog quantity by 1 |
| Shop.ShopPage.AddToCart | src/app/shop/page.tsx:49-79 | does nothing without a product, size and colour; otherwise the cart becomes `Added(...)`, the selection is cleared, quantity resets to 1, and the item count rises by the quantity; keys stay unique |
| Shop.ShopPage.RemoveFromCart | src/app/shop/page.tsx:92-95 | the cart becomes `RemoveAt(cart, index)` and keys stay unique |
| Shop.ShopPage.UpdateCartItem | src/app/shop/page.tsx:81-90 | a quantity <= 0 removes the line; a positive one replaces its quantity, changing the item count by the difference |
| DesignCanvas.Apply | src/app/design/page.tsx:260-282 | a move sets x and y, a resize clamps the size to 20..100, a rotation sets the angle, a colour change sets the colour; nothing else changes and id and kind are kept |
| DesignCanvas.EditById | src/app/design/page.tsx:260-282 | every element with the id is edited; every other element is unchanged; length, ids and kinds are kept |
| DesignCanvas.EditKeepsSizesInRange | src/app/design/page.tsx:266-270 | if every size is in 20..100 before an edit, it is after |
| DesignCanvas.ResizeSetsClampedSize | src/app/design/page.tsx:266-270 | after a resize, the matching elements' size is `max(20, min(100, n))` |
| DesignCanvas.MoveOverridesMove | src/app/design/page.tsx:260-264 | two moves of the same element equal the last one alone |
| DesignCanvas.Without | src/app/design/page.tsx:284-287 | an element remains iff its id differs; order is kept; exactly the elements with that id are removed |
| DesignCanvas.WithoutKeepsSizesInRange | src/app/design/page.tsx:284-287 | deletion keeps every size in 20..100 |
| DesignCanvas.StarCount | src/app/design/page.tsx:605 | the "Stars" figure counts the elements of type star |
| DesignCanvas.AppendStarCount | src/app/design/page.tsx:605 | appending an element raises the star count by one exactly when it is a star |
| DesignCanvas.EditKeepsStarCount | src/app/design/page.tsx:260-282 | no edit changes the number of stars |
| DesignCanvas.DropIdSameKind | src/app/design/page.tsx:242 | two drops of the same kind get the same id iff they happen at the same millisecond |
| DesignCanvas.DropColorIsPattern | src/app/design/page.tsx:247 | a dropped element always gets the pattern colour #000000, whether or not its kind is in the library |
| DesignCanvas.TestOutcome | src/app/design/page.tsx:289-296 | the score is the draw scaled to 60..100 and rounded; success iff the unrounded score exceeds 80 |
| DesignCanvas.Score80IsAmbiguous | src/app/design/page.tsx:291-294 | a shown score of 80 can come with either success value |
| DesignCanvas.DesignPage.constructor | src/app/design/page.tsx:194-200 | starts on the shirt with an empty canvas and no selection, drag or test result |
| DesignCanvas.DesignPage.SelectClothing | src/app/design/page.tsx:353 | sets the clothing type |
| DesignCanvas.DesignPage.DragStart | src/app/design/page.tsx:224-227 | records the dragged kind and starts dragging |
| DesignCanvas.Dropped | src/app/design/page.tsx:237-249 | the new element has id `kind-now` and the dragged kind, its 50 px box is centred on the pointer in canvas coordinates (25 px up and left), it is unrotated, its size is within 20..100, and its colour is #000000 |
| DesignCanvas.DropThenMoveIsDropAt | src/app/design/page.tsx:237-249 | moving a dropped element by the canvas formula (lines 387-388) to another pointer position gives the element a drop there would have created |
| DesignCanvas.DesignPage.HandleDrop | src/app/design/page.tsx:233-254 | without a dragged kind or canvas nothing changes; otherwise elements become the old ones plus `Dropped(kind, rect, x, y, now)`, and dragging ends |
| DesignCanvas.DesignPage.CanvasDrop | src/app/design/page.tsx:381-395 | dropping a placed element moves it (EditById with MoveTo) to the pointer less 25 px, if the canvas is mounted; otherwise a library drag in progress appends `Dropped(kind, rect, x, y, now)` and ends the drag; with neither nothing changes |
| DesignCanvas.DesignPage.ClickElement | src/app/design/page.tsx:256-258 | selects the element |
| DesignCanvas.DesignPage.MoveElement | src/app/design/page.tsx:260-264 | elements become `EditById(..., MoveTo(x, y))`; sizes stay in range |
| DesignCanvas.DesignPage.ResizeElement | src/app/design/page.tsx:266-270 | elements become `EditById(..., ResizeTo(n))`; sizes stay in range |
| DesignCanvas.DesignPage.RotateElement | src/app/design/page.tsx:272-276 | elements become `EditById(..., RotateTo(r))` |
| DesignCanvas.DesignPage.RecolorElement | src/app/design/page.tsx:278-282 | elements become `EditById(..., Recolor(c))` |
| DesignCanvas.DesignPage.DeleteElement | src/app/design/page.tsx:284-287 | elements become `Without(elements, id)` and the selection is cleared |
| DesignCanvas.DesignPage.TestDesign | src/app/design/page.tsx:289-296 | the test result becomes `TestOutcome(draw)` |
| DesignCanvas.DesignPage.ResetCanvas | src/app/design/page.tsx:308-312 | empties the canvas and clears the selection and test result |
| Designs.FindEntry | src/app/design/page.tsx:217-222 | finds the library entry of a kind, or none when no entry has it |
| Designs.LibraryIcon | src/app/design/page.tsx:408 | the outline star is used exactly for kinds outside the library |
| Designs.ZoomIcon | src/components/DesignZoomModal.tsx:222-248 | never the outline star; unknown kinds fall back to the solid star |
| Designs.IconTablesAgreeOnLibrary | src/components/DesignZoomModal.tsx:247 | the canvas and zoom icon tables agree exactly on the four library kinds |
| DesignPreview.Place | src/components/DesignPreview.tsx:199-231 | an element is drawn at its size and rotation; the pattern glyph of the element's own type iff its colour is #000000, otherwise the library icon of that type (`LibraryIcon`) in its colour |
| DesignPreview.PlaceUnplace | src/components/DesignPreview.tsx:202-207 | removing the -25/-60 offset recovers the element's position |
| DesignPreview.PreviewIsShiftedLargeView | src/components/DesignPreview.tsx:202-218 | the small preview is the zoom view shifted by (-25, -60) with the same size and rotation |
| DesignPreview.UnknownTypeGlyphs | src/components/DesignPreview.tsx:189 | a coloured element of an unknown kind shows the outline star in the preview but the solid star in the zoom view |
| DesignPreview.Render | src/components/DesignPreview.tsx:160-235 | the clothing's template and one placement per element, in order |
| ZoomViewer.ZoomModal.constructor | src/components/DesignZoomModal.tsx:16-19 | starts at 100 % zoom, unpanned and not dragging |
| ZoomViewer.ZoomModal.Open | src/components/DesignZoomModal.tsx:23-28 | opening resets zoom and pan |
| ZoomViewer.ZoomModal.ZoomIn | src/components/DesignZoomModal.tsx:30-32 | +0.5, capped at 3 |
| ZoomViewer.ZoomModal.ZoomOut | src/components/DesignZoomModal.tsx:34-36 | -0.5, floored at 0.5 |
| ZoomViewer.ZoomModal.Reset | src/components/DesignZoomModal.tsx:38-41 | resets zoom to 1 and pan to the origin |
| ZoomViewer.ZoomModal.Wheel | src/components/DesignZoomModal.tsx:63-67 | ±0.1 clamped to 0.5..3; scrolling down never zooms in, scrolling up never zooms out |
| ZoomViewer.ZoomModal.MouseDown | src/components/DesignZoomModal.tsx:43-48 | when zoomed in, starts a drag anchored at pointer minus position; otherwise does nothing |
| ZoomViewer.ZoomModal.MouseMove | src/components/DesignZoomModal.tsx:50-57 | while dragging zoomed in, the position follows the pointer; otherwise it is unchanged |
| ZoomViewer.ZoomModal.MouseUp | src/components/DesignZoomModal.tsx:59-61 | ends the drag (also on mouse leave, line 126) |
| ZoomViewer.Pan | src/components/DesignZoomModal.tsx:43-57 | press then move pans the view by exactly the pointer's displacement |
| ZoomViewer.PressAndReturn | src/components/DesignZoomModal.tsx:43-57 | press then move back to the same point leaves the view where it was |
| ZoomViewer.ZoomPercent | src/components/DesignZoomModal.tsx:88 | the shown percentage is `round(zoom * 100)`, between 50 and 300 |
| ZoomViewer.PlaceLarge | src/components/DesignZoomModal.tsx:193-211 | an element is drawn at its position, size and rotation; the pattern glyph of the element's own type iff its colour is #000000, otherwise the zoom icon of that type in its colour |
| Detections.ConfidenceBand | src/app/demo/page.tsx:413-414 | low below 0.3, medium in [0.3, 0.7), high from 0.7 |
| Detections.BandMonotone | src/app/demo/page.tsx:413-414 | a higher confidence never falls in a lower band |
| LiveDemo.CountOfDetectionText | src/app/demo/page.tsx:153-155 | the logged text reads back as the count it was logged for |
| LiveDemo.DetectionTextInjective | src/app/demo/page.tsx:153-155 | different counts are logged with different texts |
| LiveDemo.Appended | src/app/demo/page.tsx:157 | the history keeps at most 10 entries, ends with the new one, and is a suffix of old history plus the entry; below 10 nothing is dropped |
| LiveDemo.FullHistoryDropsOldest | src/app/demo/page.tsx:157 | on a full history, appending drops exactly the oldest entry |
| LiveDemo.Status | src/app/demo/page.tsx:394-395 | INVISIBLE iff nobody is detected; FULLY DETECTED iff two or more people are |
| LiveDemo.StatusAgreesWithHistoryText | src/app/demo/page.tsx:153-155 | the headline says INVISIBLE exactly when the history logs "No people detected" |
| LiveDemo.DemoPage.constructor | src/app/demo/page.tsx:73-79 | starts disconnected with no data, no frame, empty history and last count -1 |
| LiveDemo.DemoPage.Connected | src/app/demo/page.tsx:94-99 | marks the stream connected |
| LiveDemo.DemoPage.HandleMessage | src/app/demo/page.tsx:140-168 | a connection message changes nothing; an inference stores its data and logs the count iff it differs from the last one; a frame message with a non-empty frame shows it as a JPEG data URL |
| LiveDemo.DemoPage.ReceiveInference | src/app/demo/page.tsx:146-159 | stores the data; a changed count appends `time: text` to the history and becomes the last count; an unchanged one leaves both alone |
| LiveDemo.DemoPage.ReceiveFrame | src/app/demo/page.tsx:162-166 | a non-empty frame becomes `data:image/jpeg;base64,` + frame; a missing or empty one changes nothing |
| LiveDemo.DemoPage.Disconnect | src/app/demo/page.tsx:130-138 | disconnected with no data and no frame |
| LiveDemo.DemoPage.ResetDemo | src/app/demo/page.tsx:170-176 | empties the history, resets the last count to -1, and disconnects only if connected |
| LiveDemo.ResetThenInference | src/app/demo/page.tsx:157-176 | after a reset, the next inference is always logged, as the only entry |
| Typing.TypingAnimation.constructor | src/app/demo/page.tsx:11-13 | starts with nothing displayed |
| Typing.TypingAnimation.Step | src/app/demo/page.tsx:16-24 | each tick shows one more character of the text, until all is shown |
| Typing.TypingAnimation.Finish | src/app/page.tsx:16-24 | ticking until done displays exactly the whole text |
| Typing.RenderText | src/app/demo/page.tsx:27-39 | plain text iff the word does not occur; otherwise a highlighted word after a prefix that does not contain it (the exact split is stated by RenderedSplitsAtFirst) |
| Typing.RenderedSplitsAtFirst | src/app/page.tsx:28-34 | where the word first occurs at i, the text before it is exactly `displayed[..i]`, and the text after it runs from the end of that occurrence up to the next occurrence, or to the end of the text when there is none (`parts[0]`, word, `parts[1]`) |
| Typing.RenderedIsPrefix | src/app/page.tsx:27-39 | what is rendered is a prefix of what was typed, and all of it when the word occurs at most once |
| Typing.OneOccurrenceRendersWhole | src/app/demo/page.tsx:27-39 | a text whose first occurrence of the word is right after `before`, and whose tail `after` holds no further occurrence, renders as before, highlighted word, after |
| Typing.HomeHeadline | src/app/page.tsx:27-39 | the fully typed home headline "Be Invisible to AI" (line 191) renders as "Be ", highlighted "Invisible", " to AI" |
| Typing.DemoHeadline | src/app/demo/page.tsx:27-39 | the fully typed demo headline "Live Detection Demo" (line 205) renders as "Live ", highlighted "Detection", " Demo" |
| Home.NextIndex | src/app/page.tsx:70-72 | the next slide index is a valid index |
| Home.PreviousIndex | src/app/page.tsx:74-76 | the previous slide index is a valid index |
| Home.PreviousNextInverse | src/app/page.tsx:70-76 | next and previous undo each other |
| Home.AdvanceIsModular | src/app/page.tsx:61-68 | k auto-play ticks move the slide by k modulo 4 |
| Home.FullCycle | src/app/page.tsx:61-68 | four ticks return to the same slide |
| Home.Carousel.constructor | src/app/page.tsx:58-59 | starts on slide 0 with auto-play on |
| Home.Carousel.GoToNext | src/app/page.tsx:70-72 | moves to the next slide |
| Home.Carousel.GoToPrevious | src/app/page.tsx:74-76 | moves to the previous slide |
| Home.Carousel.GoToSlide | src/app/page.tsx:78-80 | a dot jumps to its slide |
| Home.Carousel.Tick | src/app/page.tsx:61-68 | an interval tick advances only while auto-playing |
| Home.Carousel.ToggleAutoPlay | src/app/page.tsx:123 | flips auto-play |
| DetectionTest.BoxRoundTrip | src/app/test/page.tsx:45-50 | corner boxes and origin/size boxes convert into each other without loss |
| DetectionTest.ToResult | src/app/test/page.tsx:39-55 | detected iff the count is positive; one object named "person" per detection, with its confidence and its box; confidence, time, image and annotated image carried over |
| DetectionTest.ImagePayload | src/app/test/page.tsx:29 | a payload exists iff the data URL has a comma, and it holds no comma |
| DetectionTest.PayloadAfterFirstComma | src/app/test/page.tsx:29 | where the first comma is at i, the payload is the text after it up to the second comma, or to the end when there is no second comma |
| DetectionTest.DataUrlPayload | src/app/test/page.tsx:29 | for `header,data` the payload is `data` |
| DetectionTest.EmptyPayloadRefused | src/app/test/page.tsx:29 | a data URL without a comma or with an empty payload is refused by the inference route with 400 |
| DetectionTest.ColorFollowsBand | src/app/test/page.tsx:165-169 | the confidence colour follows the demo page's confidence bands |
| DetectionTest.ResultBadge | src/app/test/page.tsx:145-163 | no badge without a result; DETECTED iff the result is detected, INVISIBLE iff it is not |
| DetectionTest.TestPage.constructor | src/app/test/page.tsx:13-15 | starts idle with no result and no preview |
| DetectionTest.TestPage.PhotoTaken | src/app/test/page.tsx:91-93 | shows the preview and starts loading |
| DetectionTest.TestPage.DetectionDone | src/app/test/page.tsx:96-101 | stores the mapped result and stops loading |
| DetectionTest.TestPage.TestAnother | src/app/test/page.tsx:338-343 | clears result and preview, so no badge shows |
| Json.Property | src/app/api/inference/route.ts:5 | a destructured field is present iff the body is an object with that key, and then it is that key's value |
| InferenceRoute.Fallback | src/app/api/inference/route.ts:39-66 | the mock body has exactly its six keys, success true, count and detections agreeing, the mock confidence, and the request's image as annotated image |
| InferenceRoute.MockRanges | src/app/api/inference/route.ts:44-45 | the mock confidence lies in [0.2, 0.8) and the mock count is 0 or 1 |
| InferenceRoute.Post | src/app/api/inference/route.ts:3-76 | an unreadable body gives 500; a missing or falsy image gives 400 'No image provided'; otherwise 200, with the upstream fields over `success: true`, or the mock body when upstream fails |
| InferenceRoute.UpstreamFieldsWin | src/app/api/inference/route.ts:33-38 | an upstream answer is passed through with `success: true` added only where upstream has no `success` |
| InferenceRoute.ImageAlwaysAnswered | src/app/api/inference/route.ts:17-67 | with an image, the route answers 200 whether or not upstream is reachable |
| TestDesignRoute.ConfusionScore | src/app/api/test-design/route.ts:4-36 | the score lies in 0..100, and is 100 when nothing is detected |
| TestDesignRoute.ScoreNonIncreasingInCount | src/app/api/test-design/route.ts:17-35 | more detections never raise the score |
| TestDesignRoute.ScoreNonIncreasingInConfidence | src/app/api/test-design/route.ts:17-35 | a more confident detector never raises the score |
| TestDesignRoute.SingleDetectionPassesIffUnsure | src/app/api/test-design/route.ts:21-31 | with one detection the design passes (score > 70) iff confidence is below 0.3 |
| TestDesignRoute.Post | src/app/api/test-design/route.ts:38-116 | unreadable body 500; missing screenshot or clothing type 400; a downstream call that throws 500 'Internal server error'; a generation failure 500 with "Failed to generate image: …"; an inference failure 500 with "Failed to run inference: …"; 200 exactly when the fields are present and both steps succeed |
| TestDesignRoute.RefusedBeforeDownstream | src/app/api/test-design/route.ts:42-47 | a request missing a field is refused with 400, whatever the downstream services would do |
| TestDesignRoute.SuccessReportsScore | src/app/api/test-design/route.ts:90-107 | a successful answer reports the confusion score and passes iff it exceeds 70 |
| TestDesignRoute.NobodyDetectedPasses | src/app/api/test-design/route.ts:11-13 | an image in which nobody is detected scores 100 and passes |
| OrderModal.Price | src/components/OrderModal.tsx:28-32 | the base price (29.99 for a shirt, 59.99 otherwise) for a design that is untested or failed its test, 1.2 times it for one that passed; hence between 29.99 and 71.988 |
| OrderModal.PassedCostsTwentyPercentMore | src/components/OrderModal.tsx:30 | a design that passed its test costs exactly 1.2 times the untested price |
| OrderModal.AfterLastDash | src/components/OrderModal.tsx:36 | the text after the last dash is a dash-free suffix |
| OrderModal.DashJoinSplit | src/components/OrderModal.tsx:36 | splitting `a-b` at the last dash gives back a and a dash-free b |
| OrderModal.CartItemIdInjective | src/components/OrderModal.tsx:36 | different (design, size, colour) choices get different cart-item ids |
| OrderModal.ChoicesDashFree | src/components/OrderModal.tsx:18-19 | no offered size or colour contains a dash |
| OrderModal.OrderForm.constructor | src/components/OrderModal.tsx:23-25 | the dialog starts at size M, colour Black, quantity 1 |
| OrderModal.OrderForm.SelectSize | src/components/OrderModal.tsx:89 | sets the size |
| OrderModal.OrderForm.SelectColor | src/components/OrderModal.tsx:111 | sets the colour |
| OrderModal.OrderForm.Decrement | src/components/OrderModal.tsx:131 | lowers the quantity, never below 1 |
| OrderModal.OrderForm.Increment | src/components/OrderModal.tsx:140 | raises the quantity by 1 |
| OrderModal.OrderForm.CartItem | src/components/OrderModal.tsx:34-47 | the cart item carries the decodable id, the design, the choices and the price; price times quantity is the total the dialog shows |
| Checkout.FindMethod | src/app/checkout/page.tsx:70 | the first saved card with the id (no earlier card has it), or none when no card has it |
| Checkout.Prefill | src/app/checkout/page.tsx:73-83 | fills the form iff the address has three ", "-separated parts; the card number is masked to its last four digits, the CVV is empty, name, email and expiry are copied, and the country is United States |
| Checkout.PrefillAddress | src/app/checkout/page.tsx:79-81 | an address `street, city, state zip` fills street, city and zip |
| Checkout.PrefillJohnDoe | src/app/checkout/page.tsx:40-47 | John Doe's card fills 123 Main St / New York / 10001 |
| Checkout.PrefillJaneSmith | src/app/checkout/page.tsx:49-56 | Jane Smith's card fills 456 Oak Ave / Los Angeles / 90210 |
| Checkout.WithFieldOnlyThatField | src/app/checkout/page.tsx:126-131 | an input change sets that field and leaves every other field alone |
| Checkout.LineAmountAgrees | src/app/checkout/page.tsx:237 | the summary charges a product line what the shop page charges, and a design line the order dialog's total |
| Checkout.TotalIsSubtotalPlusTax | src/app/checkout/page.tsx:274-279 | the total (subtotal times 1.08) is the subtotal plus the 8 % tax |
| Checkout.CheckoutPage.constructor | src/app/checkout/page.tsx:19-36 | starts with a blank form (country United States), no card chosen, not processing, not complete |
| Checkout.CheckoutPage.SelectPaymentMethod | src/app/checkout/page.tsx:68-85 | records the choice; a known card with a well-formed address fills the form; otherwise the form is unchanged |
| Checkout.CheckoutPage.UseNewPayment | src/app/checkout/page.tsx:87-100 | clears the choice and blanks the form |
| Checkout.CheckoutPage.InputChange | src/app/checkout/page.tsx:126-131 | the form becomes the old one with that one field replaced |
| Checkout.CheckoutPage.PaymentSubmit | src/app/checkout/page.tsx:102-124 | the order is complete, the cart empty and processing finished |
| JsMath.Round | src/app/api/test-design/route.ts:21 | `Math.round`: the nearest integer, halves rounding up |
| JsMath.RoundInt | src/app/api/test-design/route.ts:21 | rounding an integer gives it back |
| JsMath.RoundMonotone | src/app/api/test-design/route.ts:21 | rounding never reverses order |
| JsMath.Clamp | src/app/api/test-design/route.ts:35 | `max(lo, min(hi, n))`: within bounds, the identity inside, the nearer bound outside |
| JsMath.ClampMonotone | src/app/api/test-design/route.ts:35 | clamping never reverses order |
| Text.IndexOf | src/app/shop/page.tsx:41-42 | the first occurrence at or after `from`, or none when there is none |
| Text.Contains | src/app/shop/page.tsx:41-42 | `includes` holds iff the pattern occurs somewhere |
| Text.ContainsEmpty | src/app/shop/page.tsx:41-42 | every string includes the empty string |
| Text.Split | src/app/demo/page.tsx:28 | `split` always gives at least one piece |
| Text.JoinSplit | src/app/demo/page.tsx:28 | joining the pieces with the separator gives back the string |
| Text.SplitPiecesFree | src/app/checkout/page.tsx:79-81 | no piece of a split contains the separator |
| Text.ToLower | src/app/shop/page.tsx:41-42 | lower-cases each ASCII letter and keeps the length |
| Text.ToLowerIdempotent | src/app/shop/page.tsx:41-42 | lower-casing twice equals lower-casing once |
| Text.NatToString | src/app/design/page.tsx:242 | a non-empty run of decimal digits, two or more exactly from 10 |
| Text.ParseNatToString | src/app/design/page.tsx:242 | reading the digits back gives the number |
| Text.NatToStringInjective | src/app/design/page.tsx:242 | different numbers render differently |

## Left out

- I/O is outside the model. This covers the WebSocket connection, `fetch`, `FileReader`, the camera, `localStorage`, `alert`, routing and timers. Messages arrive already parsed. Clocks, `Math.random()` draws, bounding rectangles and downstream HTTP results are parameters.
- The shared cart store behind the checkout page and the order dialog (`useCart`, with `addToCart`, `openCart`, `clearCart` and `state.total`) is not part of this model. Instead:
  - the checkout page holds its own lines and subtotal, and `PaymentSubmit` clears them;
  - `OrderModal.OrderForm.CartItem` returns the item instead of adding it.
- The cart drawer and cart button, the dashboard, settings and sign-in pages, the Python detection server, the image generation route and the Stripe client are not part of this model.
- Drawing is not modelled: SVG paths, the `PatternIcon` image loading, CSS classes and the emoji in the status panel. A glyph is named, not drawn.
- Floating-point arithmetic is not modelled. Prices and confidences are exact reals, and `toFixed` formatting is not modelled. The zoom factor is kept in tenths, so the wheel steps of 0.1 have no floating-point drift.
- ZoomViewer.ZoomModal.Wheel: the source adds 0.1 in floating point, so repeated wheel steps can drift off the tenths; the model's zoom is exact.
- `toLowerCase` is modelled on ASCII letters only.
- Saving or ordering a design from the design page only shows an alert (`saveDesign`, `orderDesign`); neither is modelled.
- The test page's mock fallback (`mockDetection`), used when the inference request fails, is not modelled. `DetectionTest.TestPage.DetectionDone` takes the route's answer.
- Shop.ShopPage.UpdateCartItem: the source mutates the line object shared with the previous cart array. The model replaces the line in a new sequence. A positive quantity at an index past the end makes the source throw, so the model requires an index inside the cart there.
- Checkout.Prefill: an address with fewer than three parts makes the source throw after the choice is recorded. The model leaves the form unchanged instead. A third part without a space yields `undefined` as the zip, which the model makes the empty string.
- LiveDemo.DemoPage.HandleMessage: the handler reads `lastDetectionCount` from the render it was created in. The model reads the current value, as a handler re-created on every render would. The connection-error and connecting flags are not modelled.
- InferenceRoute.Post: a request body that is valid JSON but not an object is treated as having no `image` field (400). A body that fails to parse, or is `null`, gives 500. Upstream answers are modelled as JSON objects.
- TestDesignRoute.Post: `detection_count` and `confidence` are taken as numbers. The `error` text of a failed step is a parameter.
- The test page keeps `annotatedImage` in its result, but the result type declares no such field. The model keeps the field.
- Home.Carousel.GoToSlide: the index is one of the four dots, so it is required to be in 0..3.
- DesignCanvas.TestOutcome: the draw is `Math.random()`, so it is required to be in [0, 1).

=== FILE: checkout.dfy ===
/**
 * The checkout page (src/app/checkout/page.tsx): a payment form that can be
 * filled from a saved card, the order totals, and the simulated payment.
 *
 * The cart comes from a shared cart store that is not part of this model;
 * here the page holds the lines it shows and the subtotal the store reports.
 */
module Checkout {
  import opened Wrappers
  import opened Text
  import Shop
  import OrderModal

  datatype PaymentInfo = PaymentInfo(
    cardNumber: string,
    expiryDate: string,
    cvv: string,
    cardholderName: string,
    email: string,
    address: string,
    city: string,
    zipCode: string,
    country: string)

  /** The names of the form's fields. */
  datatype Field = CardNumber | ExpiryDate | Cvv | CardholderName | Email | Address | City | ZipCode | Country

  const DefaultCountry: string := "United States"

  /** The empty form. */
  function BlankForm(): PaymentInfo {
    PaymentInfo("", "", "", "", "", "", "", "", DefaultCountry)
  }

  datatype SavedMethod = SavedMethod(
    id: string,
    name: string,
    last4: string,
    expiry: string,
    kind: string,
    email: string,
    address: string)

  /** A saved address as the page stores it: "<street>, <city>, <state> <zip>". */
  function PostalAddress(street: string, city: string, state: string, zip: string): string {
    street + ", " + (city + ", " + (state + " " + zip))
  }

  function JohnDoe(): SavedMethod {
    SavedMethod("1", "John Doe", "4242", "12/25", "Visa", "john.doe@example.com", PostalAddress("123 Main St", "New York", "NY", "10001"))
  }

  function JaneSmith(): SavedMethod {
    SavedMethod("2", "Jane Smith", "5555", "08/26", "Mastercard", "jane.smith@example.com", PostalAddress("456 Oak Ave", "Los Angeles", "CA", "90210"))
  }

  function SavedMethods(): seq<SavedMethod> {
    [JohnDoe(), JaneSmith()]
  }

  /** `savedPaymentMethods.find(m => m.id === methodId)`. */
  function FindMethod(methods: seq<SavedMethod>, id: string): (r: Option<SavedMethod>)
    ensures r.Some? ==> r.value in methods && r.value.id == id
    ensures r.None? ==> forall m :: m in methods ==> m.id != id
    ensures r.Some? ==> exists k :: 0 <= k < |methods| && methods[k] == r.value && forall j :: 0 <= j < k ==> methods[j].id != id
    decreases |methods|
  {
    if methods == [] then None
    else if methods[0].id == id then Some(methods[0])
    else FindMethod(methods[1..], id)
  }

  /** `split(' ')[1]`; an absent piece (`undefined`) is an empty field. */
  function SecondWord(s: string): string {
    var words := Split(s, " ");
    if |words| >= 2 then words[1] else ""
  }

  /**
   * The form filled from a saved card: a masked number, an empty CVV, and the
   * address split on ", " into street, city and "<state> <zip>". An address
   * with fewer than three parts makes the page throw, and nothing is filled.
   */
  function Prefill(m: SavedMethod): (r: Option<PaymentInfo>)
    ensures r.Some? <==> |Split(m.address, ", ")| >= 3
    ensures r.Some? ==>
      && r.value.cardNumber == "**** **** **** " + m.last4
      && r.value.expiryDate == m.expiry && r.value.cvv == ""
      && r.value.cardholderName == m.name && r.value.email == m.email
      && r.value.country == DefaultCountry
  {
    var parts := Split(m.address, ", ");
    if |parts| < 3 then None
    else Some(PaymentInfo("**** **** **** " + m.last4, m.expiry, "", m.name, m.email,
      parts[0], parts[1], SecondWord(parts[2]), DefaultCountry))
  }

  /** Three pieces without the separator's first character split back apart. */
  lemma SplitThree(a: string, b: string, c: string, sep: string)
    requires |sep| > 0 && sep[0] !in a && sep[0] !in b && sep[0] !in c
    ensures Split(a + sep + (b + sep + c), sep) == [a, b, c]
  {
    SplitAfter(a, sep, b + sep + c);
    SplitAfter(b, sep, c);
    SplitWhole(c, sep);
  }

  /** Two words without a space: the second is the second word. */
  lemma SecondOfTwo(a: string, b: string)
    requires ' ' !in a && ' ' !in b
    ensures SecondWord(a + " " + b) == b
  {
    SplitAfter(a, " ", b);
    SplitWhole(b, " ");
  }

  /** An address "<street>, <city>, <state> <zip>" fills street, city and zip. */
  lemma PrefillAddress(m: SavedMethod, street: string, city: string, state: string, zip: string)
    requires m.address == PostalAddress(street, city, state, zip)
    requires ',' !in street && ',' !in city && ',' !in state && ',' !in zip
    requires ' ' !in state && ' ' !in zip
    ensures Prefill(m).Some?
    ensures Prefill(m).value.address == street && Prefill(m).value.city == city && Prefill(m).value.zipCode == zip
  {
    SplitThree(street, city, state + " " + zip, ", ");
    SecondOfTwo(state, zip);
  }

  /** John Doe's card fills the form with his street, city and zip. */
  lemma PrefillJohnDoe()
    ensures Prefill(JohnDoe()).Some?
    ensures Prefill(JohnDoe()).value.address == "123 Main St"
    ensures Prefill(JohnDoe()).value.city == "New York"
    ensures Prefill(JohnDoe()).value.zipCode == "10001"
  {
    var street, city, state, zip := "123 Main St", "New York", "NY", "10001";
    var m := JohnDoe();
    PrefillAddress(m, street, city, state, zip);
  }

  /** Jane Smith's card fills the form with her street, city and zip. */
  lemma PrefillJaneSmith()
    ensures Prefill(JaneSmith()).Some?
    ensures Prefill(JaneSmith()).value.address == "456 Oak Ave"
    ensures Prefill(JaneSmith()).value.city == "Los Angeles"
    ensures Prefill(JaneSmith()).value.zipCode == "90210"
  {
    var street, city, state, zip := "456 Oak Ave", "Los Angeles", "CA", "90210";
    var m := JaneSmith();
    PrefillAddress(m, street, city, state, zip);
  }

  /** `{ ...prev, [field]: value }`. */
  function WithField(p: PaymentInfo, f: Field, value: string): PaymentInfo {
    match f
    case CardNumber => p.(cardNumber := value)
    case ExpiryDate => p.(expiryDate := value)
    case Cvv => p.(cvv := value)
    case CardholderName => p.(cardholderName := value)
    case Email => p.(email := value)
    case Address => p.(address := value)
    case City => p.(city := value)
    case ZipCode => p.(zipCode := value)
    case Country => p.(country := value)
  }

  /** The value of one field. */
  function FieldOf(p: PaymentInfo, f: Field): string {
    match f
    case CardNumber => p.cardNumber
    case ExpiryDate => p.expiryDate
    case Cvv => p.cvv
    case CardholderName => p.cardholderName
    case Email => p.email
    case Address => p.address
    case City => p.city
    case ZipCode => p.zipCode
    case Country => p.country
  }

  /** Changing a field sets that field and leaves every other one alone. */
  lemma WithFieldOnlyThatField(p: PaymentInfo, f: Field, value: string)
    ensures FieldOf(WithField(p, f, value), f) == value
    ensures forall g :: g != f ==> FieldOf(WithField(p, f, value), g) == FieldOf(p, g)
  {
  }

  /** A line of the order summary: a shop product, or a custom design from the order dialog. */
  datatype SummaryLine = ShopLine(item: Shop.CartItem) | DesignLine(design: OrderModal.DesignCartItem)

  /** The amount shown for a line: the design's own price or the product's price, times the quantity. */
  function LineAmount(l: SummaryLine): real {
    match l
    case ShopLine(item) => item.product.price * item.quantity as real
    case DesignLine(d) => d.price * d.quantity as real
  }

  /**
   * The summary charges a line what the page that added it showed: the shop
   * page's line amount, or the order dialog's total for a design priced by it.
   */
  lemma LineAmountAgrees(l: SummaryLine)
    requires l.DesignLine? ==> l.design.price == OrderModal.Price(l.design.design)
    ensures l.ShopLine? ==> LineAmount(l) == Shop.LineAmount(l.item)
    ensures l.DesignLine? ==> LineAmount(l) == OrderModal.Total(l.design.design, l.design.quantity)
  {
  }

  const TaxRate: real := 0.08

  function Tax(subtotal: real): real {
    subtotal * TaxRate
  }

  /** The order total shown: `total * 1.08`. */
  function Total(subtotal: real): real {
    subtotal * 1.08
  }

  /** The total is the subtotal plus the tax (shipping is free). */
  lemma TotalIsSubtotalPlusTax(subtotal: real)
    ensures Total(subtotal) == subtotal + Tax(subtotal)
  {
  }

  /** The page's state. */
  class CheckoutPage {
    var lines: seq<SummaryLine>
    var subtotal: real
    var paymentInfo: PaymentInfo
    var selectedPaymentMethod: string
    var isProcessing: bool
    var orderComplete: bool

    constructor (lines: seq<SummaryLine>, subtotal: real)
      ensures this.lines == lines && this.subtotal == subtotal
      ensures paymentInfo == BlankForm() && selectedPaymentMethod == ""
      ensures !isProcessing && !orderComplete
    {
      this.lines := lines;
      this.subtotal := subtotal;
      paymentInfo := BlankForm();
      selectedPaymentMethod := "";
      isProcessing := false;
      orderComplete := false;
    }

    /** `handlePaymentMethodSelect`: the choice is recorded, and a known card fills the form. */
    method SelectPaymentMethod(methodId: string)
      modifies this`selectedPaymentMethod, this`paymentInfo
      ensures selectedPaymentMethod == methodId
      ensures FindMethod(SavedMethods(), methodId).None? ==> paymentInfo == old(paymentInfo)
      ensures FindMethod(SavedMethods(), methodId).Some? ==>
        var filled := Prefill(FindMethod(SavedMethods(), methodId).value);
        paymentInfo == if filled.Some? then filled.value else old(paymentInfo)
    {
      selectedPaymentMethod := methodId;
      var found := FindMethod(SavedMethods(), methodId);
      if found.Some? {
        var filled := Prefill(found.value);
        if filled.Some? {
          paymentInfo := filled.value;
        }
      }
    }

    /** `handleUseNewPayment`. */
    method UseNewPayment()
      modifies this`selectedPaymentMethod, this`paymentInfo
      ensures selectedPaymentMethod == "" && paymentInfo == BlankForm()
    {
      selectedPaymentMethod := "";
      paymentInfo := BlankForm();
    }

    /** `handleInputChange`. */
    method InputChange(f: Field, value: string)
      modifies this`paymentInfo
      ensures paymentInfo == WithField(old(paymentInfo), f, value)
    {
      paymentInfo := WithField(paymentInfo, f, value);
    }

    /** `handlePaymentSubmit` through to its end: the order is complete, the cart empty, and processing over. */
    method PaymentSubmit()
      modifies this`isProcessing, this`orderComplete, this`lines, this`subtotal
      ensures orderComplete && lines == [] && subtotal == 0.0 && !isProcessing
    {
      isProcessing := true;
      orderComplete := true;
      lines := [];
      subtotal := 0.0;
      isProcessing := false;
    }
  }
}

=== FILE: design_canvas.dfy ===
/**
 * The design page's canvas (src/app/design/page.tsx): library elements are
 * dropped onto the template, then moved, resized, rotated, recoloured and
 * deleted by id; a mock test scores the design.
 *
 * Pixel coordinates, sizes and angles are integers (the page reads them from
 * mouse events and `parseInt`); `Date.now()` and `Math.random()` are
 * parameters.
 */
module DesignCanvas {
  import opened Wrappers
  import opened Text
  import opened Lists
  import opened JsMath
  import opened Designs

  /** The canvas's bounding rectangle; `None` while the canvas is not mounted. */
  datatype Rect = Rect(left: int, top: int)

  const DropSize: int := 50
  const MinSize: int := 20
  const MaxSize: int := 100

  /** A dropped element is centred on the pointer: its corner is half its size up and left. */
  const DropOffset: int := 25

  /** One per-id edit of the element list. */
  datatype Edit = MoveTo(x: int, y: int) | ResizeTo(size: int) | RotateTo(rotation: int) | Recolor(color: string)

  /** What one edit does to the element it applies to; resizing clamps to [20, 100]. */
  function Apply(e: Element, edit: Edit): (r: Element)
    ensures r.id == e.id && r.kind == e.kind
    ensures edit.ResizeTo? ==> MinSize <= r.size <= MaxSize
    ensures !edit.ResizeTo? ==> r.size == e.size
    ensures edit.MoveTo? ==> r == e.(x := edit.x, y := edit.y)
    ensures edit.RotateTo? ==> r == e.(rotation := edit.rotation)
    ensures edit.Recolor? ==> r == e.(color := edit.color)
  {
    match edit
    case MoveTo(x, y) => e.(x := x, y := y)
    case ResizeTo(n) => e.(size := Clamp(n, MinSize, MaxSize))
    case RotateTo(rotation) => e.(rotation := rotation)
    case Recolor(color) => e.(color := color)
  }

  /** `prev.map(el => el.id === id ? edited : el)`. */
  function EditById(elements: seq<Element>, id: string, edit: Edit): (r: seq<Element>)
    ensures |r| == |elements|
    ensures forall i :: 0 <= i < |r| ==> r[i].id == elements[i].id && r[i].kind == elements[i].kind
    ensures forall i :: 0 <= i < |r| && elements[i].id != id ==> r[i] == elements[i]
    ensures forall i :: 0 <= i < |r| && elements[i].id == id ==> r[i] == Apply(elements[i], edit)
  {
    seq(|elements|, i requires 0 <= i < |elements| =>
      if elements[i].id == id then Apply(elements[i], edit) else elements[i])
  }

  /** Every element's size lies in [20, 100]. */
  predicate SizesInRange(elements: seq<Element>) {
    forall i :: 0 <= i < |elements| ==> MinSize <= elements[i].size <= MaxSize
  }

  /** No edit takes a size out of range. */
  lemma EditKeepsSizesInRange(elements: seq<Element>, id: string, edit: Edit)
    requires SizesInRange(elements)
    ensures SizesInRange(EditById(elements, id, edit))
  {
    var r := EditById(elements, id, edit);
    forall i | 0 <= i < |r|
      ensures MinSize <= r[i].size <= MaxSize
    {
      if elements[i].id == id {
        assert r[i] == Apply(elements[i], edit);
      }
    }
  }

  /** After a resize, every element with that id has the clamped size. */
  lemma ResizeSetsClampedSize(elements: seq<Element>, id: string, n: int)
    ensures forall i :: 0 <= i < |elements| && elements[i].id == id ==>
      EditById(elements, id, ResizeTo(n))[i].size == Clamp(n, MinSize, MaxSize)
  {
  }

  /** A second move of the same id overrides the first. */
  lemma MoveOverridesMove(elements: seq<Element>, id: string, x1: int, y1: int, x2: int, y2: int)
    ensures EditById(EditById(elements, id, MoveTo(x1, y1)), id, MoveTo(x2, y2)) == EditById(elements, id, MoveTo(x2, y2))
  {
    var once := EditById(elements, id, MoveTo(x1, y1));
    var twice := EditById(once, id, MoveTo(x2, y2));
    var direct := EditById(elements, id, MoveTo(x2, y2));
    forall i | 0 <= i < |elements|
      ensures twice[i] == direct[i]
    {
      if elements[i].id == id {
        assert once[i] == elements[i].(x := x1, y := y1);
      }
    }
  }

  /** `prev.filter(el => el.id !== id)`: every element with that id removed, the rest in order. */
  function Without(elements: seq<Element>, id: string): (r: seq<Element>)
    ensures forall e :: e in r <==> e in elements && e.id != id
    ensures IsSubsequence(r, elements)
    ensures |r| + CountId(elements, id) == |elements|
    decreases |elements|
  {
    if elements == [] then []
    else
      var rest := Without(elements[1..], id);
      if elements[0].id != id then
        assert ([elements[0]] + rest)[1..] == rest;
        [elements[0]] + rest
      else
        assert rest != [] ==> rest[0] in rest && rest[0] != elements[0];
        rest
  }

  /** How many elements carry the id. */
  function CountId(elements: seq<Element>, id: string): nat
    decreases |elements|
  {
    if elements == [] then 0
    else (if elements[0].id == id then 1 else 0) + CountId(elements[1..], id)
  }

  /** Deleting keeps the sizes in range. */
  lemma WithoutKeepsSizesInRange(elements: seq<Element>, id: string)
    requires SizesInRange(elements)
    ensures SizesInRange(Without(elements, id))
  {
    var r := Without(elements, id);
    forall i | 0 <= i < |r|
      ensures MinSize <= r[i].size <= MaxSize
    {
      assert r[i] in elements;
    }
  }

  /** The "Stars" statistic: how many elements are of type 'star'. */
  function StarCount(elements: seq<Element>): (n: nat)
    ensures n <= |elements|
    decreases |elements|
  {
    if elements == [] then 0
    else StarCount(elements[..|elements| - 1]) + (if elements[|elements| - 1].kind == "star" then 1 else 0)
  }

  /** Edits keep every element's type, so they keep the star count. */
  lemma {:induction false} EditKeepsStarCount(elements: seq<Element>, id: string, edit: Edit)
    ensures StarCount(EditById(elements, id, edit)) == StarCount(elements)
    decreases |elements|
  {
    if elements != [] {
      var n := |elements|;
      var r := EditById(elements, id, edit);
      EditKeepsStarCount(elements[..n - 1], id, edit);
      assert r[..n - 1] == EditById(elements[..n - 1], id, edit);
    }
  }

  /** Appending an element raises the star count by one exactly when it is a star. */
  lemma AppendStarCount(elements: seq<Element>, e: Element)
    ensures StarCount(elements + [e]) == StarCount(elements) + (if e.kind == "star" then 1 else 0)
  {
    assert (elements + [e])[..|elements|] == elements;
  }

  /** `${dragElement}-${Date.now()}`. */
  function DropId(kind: string, now: nat): string {
    kind + "-" + NatToString(now)
  }

  /** Two drops of the same type get the same id exactly when they happen in the same millisecond. */
  lemma DropIdSameKind(kind: string, t1: nat, t2: nat)
    ensures DropId(kind, t1) == DropId(kind, t2) <==> t1 == t2
  {
    if DropId(kind, t1) == DropId(kind, t2) {
      var k := |kind + "-"|;
      assert NatToString(t1) == DropId(kind, t1)[k..];
      assert NatToString(t2) == DropId(kind, t2)[k..];
      NatToStringInjective(t1, t2);
    }
  }

  /** `celestialElements.find(...)?.color || '#000000'`. */
  function DropColor(kind: string): string {
    match FindEntry(Library(), kind)
    case Some(e) => if e.color == "" then PatternColor else e.color
    case None => PatternColor
  }

  /** Every library colour is the pattern colour, so every dropped element starts patterned. */
  lemma DropColorIsPattern(kind: string)
    ensures DropColor(kind) == PatternColor
  {
    match FindEntry(Library(), kind)
    case Some(e) =>
      assert e in Library();
    case None =>
  }

  /**
   * The element `handleDrop` creates for a library type: centred on the
   * pointer (its 50-pixel box starts 25 pixels up and left of it, in canvas
   * coordinates), unrotated, with the pattern colour and a time-stamped id.
   */
  function Dropped(kind: string, rect: Rect, clientX: int, clientY: int, now: nat): (e: Element)
    ensures e.id == DropId(kind, now) && e.kind == kind
    ensures e.x + DropOffset == clientX - rect.left && e.y + DropOffset == clientY - rect.top
    ensures e.size == DropSize && MinSize <= e.size <= MaxSize
    ensures e.rotation == 0 && e.color == PatternColor
  {
    DropColorIsPattern(kind);
    Element(DropId(kind, now), kind, clientX - rect.left - DropOffset, clientY - rect.top - DropOffset,
      DropSize, DropColor(kind), 0)
  }

  /**
   * The canvas's move path and the library's drop path agree: moving a dropped
   * element to another pointer position puts it where a drop there would have.
   */
  lemma DropThenMoveIsDropAt(kind: string, rect: Rect, x1: int, y1: int, x2: int, y2: int, now: nat)
    ensures Apply(Dropped(kind, rect, x1, y1, now), MoveTo(x2 - rect.left - DropOffset, y2 - rect.top - DropOffset))
         == Dropped(kind, rect, x2, y2, now)
  {
  }

  /** `Math.random() * 40 + 60` as the test stores it: success above 80, the score rounded. */
  function TestOutcome(draw: real): (t: TestScore)
    requires 0.0 <= draw < 1.0
    ensures t.success <==> draw > 0.5
    ensures 60 <= t.score <= 100
    ensures t.score as real - 0.5 <= draw * 40.0 + 60.0 < t.score as real + 0.5
  {
    var score := draw * 40.0 + 60.0;
    TestScore(score > 80.0, Round(score))
  }

  /** A stored score of 80 does not tell whether the test passed: both outcomes show it. */
  lemma Score80IsAmbiguous()
    ensures TestOutcome(0.5).score == 80 && !TestOutcome(0.5).success
    ensures TestOutcome(0.505).score == 80 && TestOutcome(0.505).success
  {
    assert Round(80.0) == 80;
    assert Round(80.2) == 80;
  }

  /** The design page's state that its handlers rewrite. */
  class DesignPage {
    var selectedClothing: ClothingType
    var elements: seq<Element>
    var selectedElement: Option<string>
    var isDragging: bool
    var dragElement: Option<string>
    var testResults: Option<TestScore>

    /** Every element on the canvas is between 20 and 100 pixels. */
    ghost predicate Valid()
      reads this
    {
      SizesInRange(elements)
    }

    constructor ()
      ensures Valid()
      ensures selectedClothing == Shirt && elements == [] && selectedElement == None
      ensures !isDragging && dragElement == None && testResults == None
    {
      selectedClothing := Shirt;
      elements := [];
      selectedElement := None;
      isDragging := false;
      dragElement := None;
      testResults := None;
    }

    /** The template buttons. */
    method SelectClothing(c: ClothingType)
      modifies this`selectedClothing
      ensures selectedClothing == c
    {
      selectedClothing := c;
    }

    /** `handleDragStart`: a library element is picked up. */
    method DragStart(kind: string)
      modifies this`dragElement, this`isDragging
      ensures dragElement == Some(kind) && isDragging
    {
      dragElement := Some(kind);
      isDragging := true;
    }

    /**
     * `handleDrop`: with a (non-empty) library type in hand and the canvas
     * mounted, append one element centred on the pointer and end the drag;
     * otherwise nothing happens.
     */
    method HandleDrop(rect: Option<Rect>, clientX: int, clientY: int, now: nat)
      requires Valid()
      modifies this`elements, this`dragElement, this`isDragging
      ensures Valid()
      ensures old(dragElement.None? || dragElement.value == "" || rect.None?) ==>
        elements == old(elements) && dragElement == old(dragElement) && isDragging == old(isDragging)
      ensures old(dragElement.Some? && dragElement.value != "" && rect.Some?) ==>
        && elements == old(elements) + [Dropped(old(dragElement.value), rect.value, clientX, clientY, now)]
        && dragElement == None && !isDragging
    {
      if dragElement.None? || dragElement.value == "" || rect.None? {
        return;
      }
      var e := Dropped(dragElement.value, rect.value, clientX, clientY, now);
      elements := elements + [e];
      dragElement := None;
      isDragging := false;
    }

    /**
     * The canvas's `onDrop`: an element dragged from the canvas carries its
     * id and is moved so that it is centred on the pointer; otherwise a
     * library drag in progress is dropped.
     */
    method CanvasDrop(draggedId: string, rect: Option<Rect>, clientX: int, clientY: int, now: nat)
      requires Valid()
      modifies this`elements, this`dragElement, this`isDragging
      ensures Valid()
      ensures draggedId != "" && rect.Some? ==>
        && elements == EditById(old(elements), draggedId,
             MoveTo(clientX - rect.value.left - DropOffset, clientY - rect.value.top - DropOffset))
        && dragElement == old(dragElement) && isDragging == old(isDragging)
      ensures draggedId != "" && rect.None? ==>
        elements == old(elements) && dragElement == old(dragElement) && isDragging == old(isDragging)
      ensures draggedId == "" && old(dragElement.Some? && dragElement.value != "" && rect.Some?) ==>
        && elements == old(elements) + [Dropped(old(dragElement.value), rect.value, clientX, clientY, now)]
        && dragElement == None && !isDragging
      ensures draggedId == "" && old(dragElement.None? || dragElement.value == "" || rect.None?) ==>
        elements == old(elements) && dragElement == old(dragElement) && isDragging == old(isDragging)
    {
      if draggedId != "" {
        if rect.Some? {
          MoveElement(draggedId, clientX - rect.value.left - DropOffset, clientY - rect.value.top - DropOffset);
        }
      } else if dragElement.Some? && dragElement.value != "" {
        HandleDrop(rect, clientX, clientY, now);
      }
    }

    /** `handleElementClick`. */
    method ClickElement(id: string)
      modifies this`selectedElement
      ensures selectedElement == Some(id)
    {
      selectedElement := Some(id);
    }

    /** `handleElementMove`. */
    method MoveElement(id: string, x: int, y: int)
      requires Valid()
      modifies this`elements
      ensures Valid()
      ensures elements == EditById(old(elements), id, MoveTo(x, y))
    {
      EditKeepsSizesInRange(elements, id, MoveTo(x, y));
      elements := EditById(elements, id, MoveTo(x, y));
    }

    /** `handleElementResize`: the size is clamped to [20, 100]. */
    method ResizeElement(id: string, newSize: int)
      requires Valid()
      modifies this`elements
      ensures Valid()
      ensures elements == EditById(old(elements), id, ResizeTo(newSize))
    {
      EditKeepsSizesInRange(elements, id, ResizeTo(newSize));
      elements := EditById(elements, id, ResizeTo(newSize));
    }

    /** `handleElementRotate`. */
    method RotateElement(id: string, rotation: int)
      requires Valid()
      modifies this`elements
      ensures Valid()
      ensures elements == EditById(old(elements), id, RotateTo(rotation))
    {
      EditKeepsSizesInRange(elements, id, RotateTo(rotation));
      elements := EditById(elements, id, RotateTo(rotation));
    }

    /** `handleElementColorChange`. */
    method RecolorElement(id: string, color: string)
      requires Valid()
      modifies this`elements
      ensures Valid()
      ensures elements == EditById(old(elements), id, Recolor(color))
    {
      EditKeepsSizesInRange(elements, id, Recolor(color));
      elements := EditById(elements, id, Recolor(color));
    }

    /** `deleteElement`: every element with the id goes, and the selection is cleared. */
    method DeleteElement(id: string)
      requires Valid()
      modifies this`elements, this`selectedElement
      ensures Valid()
      ensures elements == Without(old(elements), id) && selectedElement == None
    {
      WithoutKeepsSizesInRange(elements, id);
      elements := Without(elements, id);
      selectedElement := None;
    }

    /** `testDesign`, with `Math.random()` as the draw. */
    method TestDesign(draw: real)
      requires 0.0 <= draw < 1.0
      modifies this`testResults
      ensures testResults == Some(TestOutcome(draw))
    {
      testResults := Some(TestOutcome(draw));
    }

    /** `resetCanvas`. */
    method ResetCanvas()
      modifies this`elements, this`selectedElement, this`testResults
      ensures Valid()
      ensures elements == [] && selectedElement == None && testResults == None
    {
      elements := [];
      selectedElement := None;
      testResults := None;
    }
  }
}

=== FILE: design_preview.dfy ===
/**
 * The saved-design thumbnail (src/components/DesignPreview.tsx): each element
 * is drawn on the design's template at its stored size and rotation, shifted
 * 25 pixels left and 60 pixels up.
 */
module DesignPreview {
  import opened Designs
  import ZoomViewer

  /** The preview draws at full scale. */
  const ScaleFactor: int := 1
  const OffsetX: int := -25
  const OffsetY: int := -60

  /** Where and how the preview draws an element. */
  function Place(e: Element): (p: Placement)
    ensures p.width == p.height == e.size && p.rotation == e.rotation
    ensures e.color == PatternColor <==> p.glyph.Pattern?
    ensures p.glyph.Pattern? ==> p.glyph.kind == e.kind
    ensures p.glyph.Solid? ==> p.glyph.icon == LibraryIcon(e.kind) && p.glyph.color == e.color
  {
    var size := e.size * ScaleFactor;
    var left := e.x * ScaleFactor + OffsetX;
    var top := e.y * ScaleFactor + OffsetY;
    Placement(left, top, size, size, e.rotation,
      if e.color == PatternColor then Pattern(e.kind) else Solid(LibraryIcon(e.kind), e.color))
  }

  /** The stored position, read back from where the preview drew the element. */
  function Unplace(p: Placement): (xy: (int, int)) {
    (p.left - OffsetX, p.top - OffsetY)
  }

  /** The preview's position loses nothing: the stored position can be read back from it. */
  lemma PlaceUnplace(e: Element)
    ensures Unplace(Place(e)) == (e.x, e.y)
  {
  }

  /**
   * The thumbnail is the zoom dialog's picture shifted by (-25, -60): same
   * size, rotation and colour, and the same glyph for the library's types.
   */
  lemma PreviewIsShiftedLargeView(e: Element)
    ensures var small := Place(e);
      var large := ZoomViewer.PlaceLarge(e);
      && small.left == large.left + OffsetX && small.top == large.top + OffsetY
      && small.width == large.width && small.height == large.height && small.rotation == large.rotation
      && (e.kind in {"star", "saturn", "moon", "circle"} ==> small.glyph == large.glyph)
  {
    IconTablesAgreeOnLibrary(e.kind);
  }

  /** For a type outside the library the two views disagree: the thumbnail draws the outline star, the dialog the solid one. */
  lemma UnknownTypeGlyphs(e: Element)
    requires e.kind !in {"star", "saturn", "moon", "circle"} && e.color != PatternColor
    ensures Place(e).glyph == Solid(OutlineStar, e.color)
    ensures ZoomViewer.PlaceLarge(e).glyph == Solid(SolidStar, e.color)
  {
  }

  /** The design's template and every element's placement on it. */
  function Render(d: SavedDesign): (r: (Template, seq<Placement>))
    ensures r.0 == TemplateOf(d.clothingType)
    ensures |r.1| == |d.elements|
    ensures forall i :: 0 <= i < |r.1| ==> r.1[i] == Place(d.elements[i])
  {
    (TemplateOf(d.clothingType), seq(|d.elements|, i requires 0 <= i < |d.elements| => Place(d.elements[i])))
  }
}

=== FILE: designs.dfy ===
/**
 * The design shapes shared by the design page and the components that show a
 * saved design: placed elements, the two clothing templates, the element
 * library and the icon each component draws for an element type.
 */
module Designs {
  import opened Wrappers

  datatype ClothingType = Shirt | Hoodie

  /**
   * One placed icon: its type ('star', 'saturn', 'moon' or 'circle' when it
   * comes from the library), its top-left corner and edge length in canvas
   * pixels, its colour and its rotation in degrees.
   */
  datatype Element = Element(id: string, kind: string, x: int, y: int, size: int, color: string, rotation: int)

  /** The outcome of testing a design: whether it passed and its score in percent. */
  datatype TestScore = TestScore(success: bool, score: int)

  datatype SavedDesign = SavedDesign(
    id: string,
    name: string,
    clothingType: ClothingType,
    elements: seq<Element>,
    testResults: Option<TestScore>)

  datatype Template = Template(width: int, height: int, name: string, image: string)

  /** `clothingTemplates[clothingType]`. */
  function TemplateOf(c: ClothingType): Template {
    match c
    case Shirt => Template(400, 500, "T-Shirt", "/images/fordesigning/blacktshirt.webp")
    case Hoodie => Template(400, 560, "Hoodie", "/images/fordesigning/blacksweatshirt.webp")
  }

  /** The colour that is drawn with the camouflage pattern instead of a solid fill. */
  const PatternColor: string := "#000000"

  datatype Icon = SolidStar | Saturn | SolidMoon | SolidCircle | OutlineStar

  /** An entry of `celestialElements`: the element type, the icon drawn for it and its default colour. */
  datatype LibraryEntry = LibraryEntry(kind: string, icon: Icon, name: string, color: string)

  function Library(): seq<LibraryEntry> {
    [ LibraryEntry("star", SolidStar, "Star", PatternColor),
      LibraryEntry("saturn", Saturn, "Saturn", PatternColor),
      LibraryEntry("moon", SolidMoon, "Moon", PatternColor),
      LibraryEntry("circle", SolidCircle, "Circle", PatternColor) ]
  }

  /** `celestialElements.find(el => el.id === kind)`. */
  function FindEntry(entries: seq<LibraryEntry>, kind: string): (r: Option<LibraryEntry>)
    ensures r.Some? ==> r.value in entries && r.value.kind == kind
    ensures r.None? ==> forall e :: e in entries ==> e.kind != kind
    decreases |entries|
  {
    if entries == [] then None
    else if entries[0].kind == kind then Some(entries[0])
    else FindEntry(entries[1..], kind)
  }

  /** The icon the design page and the saved-design preview draw: the library's, else lucide's outline star. */
  function LibraryIcon(kind: string): (icon: Icon)
    ensures icon == OutlineStar <==> kind !in {"star", "saturn", "moon", "circle"}
  {
    match FindEntry(Library(), kind)
    case Some(e) => e.icon
    case None => OutlineStar
  }

  /** The icon the zoom viewer draws (`getIconComponent`): its own table, else the solid star. */
  function ZoomIcon(kind: string): (icon: Icon)
    ensures icon != OutlineStar
    ensures kind !in {"saturn", "moon", "circle"} ==> icon == SolidStar
  {
    if kind == "star" then SolidStar
    else if kind == "saturn" then Saturn
    else if kind == "moon" then SolidMoon
    else if kind == "circle" then SolidCircle
    else SolidStar
  }

  /** The two icon tables agree on the library's four types and differ on every other type. */
  lemma IconTablesAgreeOnLibrary(kind: string)
    ensures LibraryIcon(kind) == ZoomIcon(kind) <==> kind in {"star", "saturn", "moon", "circle"}
  {
  }

  /** How an element is drawn: the camouflage pattern in its shape, or a solid icon in its colour. */
  datatype Glyph = Pattern(kind: string) | Solid(icon: Icon, color: string)

  /** Where and how an element is drawn: its box in pixels, its rotation and its glyph. */
  datatype Placement = Placement(left: int, top: int, width: int, height: int, rotation: int, glyph: Glyph)
}

=== FILE: detection_test.dfy ===
/**
 * The detection test page (src/app/test/page.tsx): an uploaded or captured
 * photo is sent to the inference route, and its answer is turned into the
 * result the page shows.
 *
 * The request and its answer are exchanged through parameters; the mock
 * result the page falls back to when the request fails is not part of this
 * model.
 */
module DetectionTest {
  import opened Wrappers
  import opened Text
  import opened Detections
  import opened Json
  import InferenceRoute

  /** A box by its corner, width and height, as the page shows it. */
  datatype Box = Box(x: real, y: real, width: real, height: real)

  datatype DetectedObject = DetectedObject(name: string, confidence: real, bbox: Box)

  /** The fields of the inference answer the page reads. */
  datatype InferenceAnswer = InferenceAnswer(
    detectionCount: int,
    confidence: real,
    detections: seq<Detection>,
    annotatedImage: Option<string>)

  /** What the page shows. */
  datatype DetectResult = DetectResult(
    detected: bool,
    confidence: real,
    objects: seq<DetectedObject>,
    timestamp: int,
    imageUrl: string,
    annotatedImage: Option<string>)

  /** Corners to corner-and-size. */
  function ToBox(c: Corners): Box {
    Box(c.x1, c.y1, c.x2 - c.x1, c.y2 - c.y1)
  }

  /** Corner-and-size back to corners. */
  function ToCorners(b: Box): Corners {
    Corners(b.x, b.y, b.x + b.width, b.y + b.height)
  }

  /** The two box forms carry the same information. */
  lemma BoxRoundTrip(c: Corners, b: Box)
    ensures ToCorners(ToBox(c)) == c
    ensures ToBox(ToCorners(b)) == b
  {
  }

  function ToObject(d: Detection): DetectedObject {
    DetectedObject("person", d.confidence, ToBox(d.bbox))
  }

  /** The result built in `runDetection` from the inference answer, the time and the photo. */
  function ToResult(answer: InferenceAnswer, now: int, imageData: string): (r: DetectResult)
    ensures r.detected <==> answer.detectionCount > 0
    ensures r.confidence == answer.confidence
    ensures |r.objects| == |answer.detections|
    ensures forall i :: 0 <= i < |r.objects| ==>
      && r.objects[i].name == "person"
      && r.objects[i].confidence == answer.detections[i].confidence
      && ToCorners(r.objects[i].bbox) == answer.detections[i].bbox
    ensures r.timestamp == now && r.imageUrl == imageData && r.annotatedImage == answer.annotatedImage
  {
    DetectResult(
      answer.detectionCount > 0,
      answer.confidence,
      seq(|answer.detections|, i requires 0 <= i < |answer.detections| => ToObject(answer.detections[i])),
      now,
      imageData,
      answer.annotatedImage)
  }

  /** `imageData.split(',')[1]`: the part between the first and the second comma, `undefined` without a comma. */
  function ImagePayload(dataUrl: string): (r: Option<string>)
    ensures r.Some? <==> Contains(dataUrl, ",")
    ensures r.Some? ==> !Contains(r.value, ",")
  {
    var parts := Split(dataUrl, ",");
    SplitPiecesFree(dataUrl, ",");
    if |parts| >= 2 then Some(parts[1]) else None
  }

  /** The payload starts right after the first comma and runs up to the second comma, or to the end. */
  lemma {:induction false} PayloadAfterFirstComma(dataUrl: string, i: nat)
    requires IndexOf(dataUrl, ",", 0) == Some(i)
    ensures var r := ImagePayload(dataUrl);
      var rest := dataUrl[i + 1..];
      && r.Some? && |r.value| <= |rest| && r.value == rest[..|r.value|]
      && (|r.value| == |rest| || rest[|r.value|] == ',')
  {
    var rest := dataUrl[i + 1..];
    SplitAt(dataUrl, ",", i);
    SplitHead(rest, ",");
    SplitPiecesFree(dataUrl, ",");
    match IndexOf(rest, ",", 0)
    case None =>
      assert !Contains(rest, ",");
    case Some(j) =>
      SplitAt(rest, ",", j);
  }

  /** For a data URL `<header>,<base64>` the payload is the base64 text. */
  lemma DataUrlPayload(header: string, data: string)
    requires ',' !in header && ',' !in data
    ensures ImagePayload(header + "," + data) == Some(data)
  {
    SplitAfter(header, ",", data);
    SplitWhole(data, ",");
  }

  /** The request body `JSON.stringify({ image })`: an `undefined` image is dropped. */
  function RequestBody(payload: Option<string>): Json {
    match payload
    case Some(p) => JObj(map["image" := JStr(p)])
    case None => JObj(map[])
  }

  /** A photo without a comma, or with nothing after it, is refused by the inference route. */
  lemma EmptyPayloadRefused(dataUrl: string, upstream: InferenceRoute.Upstream, confDraw: real, countDraw: real)
    requires ImagePayload(dataUrl).None? || ImagePayload(dataUrl) == Some("")
    ensures InferenceRoute.Post(Some(RequestBody(ImagePayload(dataUrl))), upstream, confDraw, countDraw)
         == ErrorResponse(400, InferenceRoute.NoImage)
  {
  }

  /** `getConfidenceColor`. */
  function ConfidenceColor(c: real): string {
    if c < 0.3 then "text-green-600"
    else if c < 0.7 then "text-yellow-600"
    else "text-red-600"
  }

  function BandColor(b: Band): string {
    match b
    case Low => "text-green-600"
    case Medium => "text-yellow-600"
    case High => "text-red-600"
  }

  /** The page colours a confidence by the same three bands as the live demo's meter. */
  lemma ColorFollowsBand(c: real)
    ensures ConfidenceColor(c) == BandColor(ConfidenceBand(c))
  {
  }

  datatype Badge = DetectedBadge | InvisibleBadge

  /** `getResultBadge`. */
  function ResultBadge(result: Option<DetectResult>): (b: Option<Badge>)
    ensures b.None? <==> result.None?
    ensures b == Some(DetectedBadge) <==> result.Some? && result.value.detected
    ensures b == Some(InvisibleBadge) <==> result.Some? && !result.value.detected
  {
    match result
    case None => None
    case Some(r) => if r.detected then Some(DetectedBadge) else Some(InvisibleBadge)
  }

  /** The page's state. */
  class TestPage {
    var isLoading: bool
    var result: Option<DetectResult>
    var imagePreview: Option<string>

    constructor ()
      ensures !isLoading && result == None && imagePreview == None
    {
      isLoading := false;
      result := None;
      imagePreview := None;
    }

    /** A photo was read or captured: it is previewed while detection runs. */
    method PhotoTaken(imageData: string)
      modifies this`imagePreview, this`isLoading
      ensures imagePreview == Some(imageData) && isLoading
    {
      imagePreview := Some(imageData);
      isLoading := true;
    }

    /** Detection answered. */
    method DetectionDone(answer: InferenceAnswer, now: int, imageData: string)
      modifies this`result, this`isLoading
      ensures result == Some(ToResult(answer, now, imageData)) && !isLoading
    {
      result := Some(ToResult(answer, now, imageData));
      isLoading := false;
    }

    /** "Test Another Image": the result and the preview are cleared. */
    method TestAnother()
      modifies this`result, this`imagePreview
      ensures result == None && imagePreview == None
      ensures ResultBadge(result) == None
    {
      result := None;
      imagePreview := None;
    }
  }
}

=== FILE: detections.dfy ===
/**
 * What the person detector reports, as the live demo, the detection test page
 * and the inference route pass it around, and the three confidence bands the
 * pages colour a confidence by.
 */
module Detections {

  /** A bounding box given by its top-left and bottom-right corners. */
  datatype Corners = Corners(x1: real, y1: real, x2: real, y2: real)

  /** One detected person: the detector's confidence and the box around them. */
  datatype Detection = Detection(confidence: real, bbox: Corners)

  /** Green, yellow and red: below 0.3, below 0.7, and the rest. */
  datatype Band = Low | Medium | High

  function ConfidenceBand(c: real): (b: Band)
    ensures b == Low <==> c < 0.3
    ensures b == Medium <==> 0.3 <= c < 0.7
    ensures b == High <==> 0.7 <= c
  {
    if c < 0.3 then Low else if c < 0.7 then Medium else High
  }

  function BandRank(b: Band): nat {
    match b
    case Low => 0
    case Medium => 1
    case High => 2
  }

  /** A higher confidence never falls in a lower band. */
  lemma BandMonotone(c: real, d: real)
    requires c <= d
    ensures BandRank(ConfidenceBand(c)) <= BandRank(ConfidenceBand(d))
  {
  }
}

=== FILE: home.dfy ===
/**
 * The home page's pattern carousel (`ImageCarousel` in src/app/page.tsx):
 * four images stepped through by buttons, dots and a timer that runs while
 * auto-play is on.
 */
module Home {

  /** The number of pattern images. */
  const ImageCount: nat := 4

  /** `(prevIndex + 1) % images.length`. */
  function NextIndex(i: int): (r: int)
    ensures 0 <= r < ImageCount
  {
    (i + 1) % ImageCount
  }

  /** `(prevIndex - 1 + images.length) % images.length`. */
  function PreviousIndex(i: int): (r: int)
    ensures 0 <= r < ImageCount
  {
    (i - 1 + ImageCount) % ImageCount
  }

  /** Previous undoes next and next undoes previous. */
  lemma PreviousNextInverse(i: int)
    requires 0 <= i < ImageCount
    ensures PreviousIndex(NextIndex(i)) == i
    ensures NextIndex(PreviousIndex(i)) == i
  {
  }

  /** `k` presses of next. */
  function Advance(i: int, k: nat): int
    decreases k
  {
    if k == 0 then i else NextIndex(Advance(i, k - 1))
  }

  /** `k` steps forward from a valid index land on `(i + k) % 4`. */
  lemma {:induction false} AdvanceIsModular(i: int, k: nat)
    requires 0 <= i < ImageCount
    ensures Advance(i, k) == (i + k) % ImageCount
    decreases k
  {
    if k > 0 {
      AdvanceIsModular(i, k - 1);
    }
  }

  /** After one step per image the carousel is back where it began. */
  lemma FullCycle(i: int)
    requires 0 <= i < ImageCount
    ensures Advance(i, ImageCount) == i
  {
    AdvanceIsModular(i, ImageCount);
  }

  /** The carousel's state. */
  class Carousel {
    var currentIndex: int
    var isAutoPlaying: bool

    ghost predicate Valid()
      reads this
    {
      0 <= currentIndex < ImageCount
    }

    constructor ()
      ensures Valid() && currentIndex == 0 && isAutoPlaying
    {
      currentIndex := 0;
      isAutoPlaying := true;
    }

    /** `goToNext`. */
    method GoToNext()
      requires Valid()
      modifies this`currentIndex
      ensures Valid() && currentIndex == NextIndex(old(currentIndex))
    {
      currentIndex := NextIndex(currentIndex);
    }

    /** `goToPrevious`. */
    method GoToPrevious()
      requires Valid()
      modifies this`currentIndex
      ensures Valid() && currentIndex == PreviousIndex(old(currentIndex))
    {
      currentIndex := PreviousIndex(currentIndex);
    }

    /** `goToSlide`, called by the dots with the index of an image. */
    method GoToSlide(index: int)
      requires 0 <= index < ImageCount
      modifies this`currentIndex
      ensures Valid() && currentIndex == index
    {
      currentIndex := index;
    }

    /** One firing of the auto-advance timer, which only runs while auto-play is on. */
    method Tick()
      requires Valid()
      modifies this`currentIndex
      ensures Valid()
      ensures isAutoPlaying ==> currentIndex == NextIndex(old(currentIndex))
      ensures !isAutoPlaying ==> currentIndex == old(currentIndex)
    {
      if isAutoPlaying {
        currentIndex := NextIndex(currentIndex);
      }
    }

    /** The play/pause button. */
    method ToggleAutoPlay()
      modifies this`isAutoPlaying
      ensures isAutoPlaying == !old(isAutoPlaying)
    {
      isAutoPlaying := !isAutoPlaying;
    }
  }
}

=== FILE: inference_route.dfy ===
/**
 * The inference API route (src/app/api/inference/route.ts): it checks that
 * the request carries an image and forwards it to the detection server;
 * when that server fails it answers with a randomly drawn mock result.
 *
 * The server's answer and the two `Math.random()` draws are parameters.
 */
module InferenceRoute {
  import opened Wrappers
  import opened Json

  /** What the detection server answered: a JSON object, or a failure (non-ok status, network error, body not JSON). */
  datatype Upstream = UpstreamOk(fields: map<string, Json>) | UpstreamFailed

  /** The mock detection's fixed bounding box. */
  function MockBox(): Json {
    JObj(map["x1" := JNum(100.0), "y1" := JNum(50.0), "x2" := JNum(300.0), "y2" := JNum(400.0)])
  }

  function MockDetection(confidence: real): Json {
    JObj(map["confidence" := JNum(confidence), "bbox" := MockBox()])
  }

  /** `Math.random() * 0.6 + 0.2`. */
  function MockConfidence(draw: real): real {
    draw * 0.6 + 0.2
  }

  /** `Math.random() > 0.3 ? 1 : 0`. */
  function MockCount(draw: real): nat {
    if draw > 0.3 then 1 else 0
  }

  /** The mock result, from the image and the two random draws. */
  function Fallback(image: Json, confDraw: real, countDraw: real): (body: map<string, Json>)
    ensures body.Keys == {"success", "detections", "confidence", "detection_count", "annotated_image", "format"}
    ensures body["success"] == JBool(true)
    ensures body["detection_count"] == JNum(MockCount(countDraw) as real)
    ensures body["detections"].JArr? && |body["detections"].items| == MockCount(countDraw)
    ensures forall d :: d in body["detections"].items ==> d == MockDetection(MockConfidence(confDraw))
    ensures body["confidence"] == JNum(MockConfidence(confDraw))
    ensures body["annotated_image"] == image
  {
    var n := MockCount(countDraw);
    var c := MockConfidence(confDraw);
    map[
      "success" := JBool(true),
      "detections" := JArr(if n > 0 then [MockDetection(c)] else []),
      "confidence" := JNum(c),
      "detection_count" := JNum(n as real),
      "annotated_image" := image,
      "format" := JStr("jpeg")]
  }

  /** For draws in [0, 1): at most one person, with a confidence in [0.2, 0.8). */
  lemma MockRanges(confDraw: real, countDraw: real)
    requires 0.0 <= confDraw < 1.0 && 0.0 <= countDraw < 1.0
    ensures MockCount(countDraw) <= 1
    ensures 0.2 <= MockConfidence(confDraw) < 0.8
  {
  }

  const NoImage: string := "No image provided"

  /**
   * `POST /api/inference`. `request` is the parsed body (`None` when it is
   * not JSON); `upstream` is what the detection server would answer.
   */
  function Post(request: Option<Json>, upstream: Upstream, confDraw: real, countDraw: real): (resp: Response)
    ensures request.None? || request == Some(JNull) ==> resp == InternalError()
    ensures request.Some? && request.value != JNull && !Truthy(Property(request.value, "image")) ==>
      resp == ErrorResponse(400, NoImage)
    ensures request.Some? && request.value != JNull && Truthy(Property(request.value, "image")) ==>
      resp.status == 200 && resp.body.JObj?
      && (upstream.UpstreamOk? ==> resp.body.fields == map["success" := JBool(true)] + upstream.fields)
      && (upstream.UpstreamFailed? ==>
            resp.body.fields == Fallback(Property(request.value, "image").value, confDraw, countDraw))
  {
    match request
    case None => InternalError()
    case Some(body) =>
      if body == JNull then InternalError()
      else
        var image := Property(body, "image");
        if !Truthy(image) then ErrorResponse(400, NoImage)
        else match upstream
          case UpstreamOk(fields) => Response(200, JObj(map["success" := JBool(true)] + fields))
          case UpstreamFailed => Response(200, JObj(Fallback(image.value, confDraw, countDraw)))
  }

  /** On a server answer every field of the server's wins, and `success` is true unless the server says otherwise. */
  lemma UpstreamFieldsWin(request: Json, fields: map<string, Json>, confDraw: real, countDraw: real)
    requires request != JNull && Truthy(Property(request, "image"))
    ensures var body := Post(Some(request), UpstreamOk(fields), confDraw, countDraw).body;
      && body.JObj?
      && body.fields.Keys == fields.Keys + {"success"}
      && (forall k :: k in fields ==> body.fields[k] == fields[k])
      && ("success" !in fields ==> body.fields["success"] == JBool(true))
  {
  }

  /** Whether the detection server answers or not, a request with an image is answered with status 200. */
  lemma ImageAlwaysAnswered(request: Json, u1: Upstream, u2: Upstream, confDraw: real, countDraw: real)
    requires request != JNull && Truthy(Property(request, "image"))
    ensures Post(Some(request), u1, confDraw, countDraw).status == Post(Some(request), u2, confDraw, countDraw).status == 200
  {
  }
}

=== FILE: jsmath.dfy ===
/** The JavaScript `Math` functions the application uses, on exact numbers. */
module JsMath {

  /** `Math.round(x)`: the nearest integer, halves rounded up. */
  function Round(x: real): (r: int)
    ensures r as real - 0.5 <= x < r as real + 0.5
  {
    (x + 0.5).Floor
  }

  /** `Math.max(lo, Math.min(hi, n))` on integers. */
  function Clamp(n: int, lo: int, hi: int): (r: int)
    requires lo <= hi
    ensures lo <= r <= hi
    ensures lo <= n <= hi ==> r == n
    ensures n < lo ==> r == lo
    ensures n > hi ==> r == hi
  {
    if n > hi then hi else if n < lo then lo else n
  }

  /** Rounding an integer leaves it alone. */
  lemma RoundInt(n: int)
    ensures Round(n as real) == n
  {
  }

  /** Rounding is monotone. */
  lemma RoundMonotone(x: real, y: real)
    requires x <= y
    ensures Round(x) <= Round(y)
  {
  }

  /** Clamping is monotone in the clamped value. */
  lemma ClampMonotone(m: int, n: int, lo: int, hi: int)
    requires lo <= hi && m <= n
    ensures Clamp(m, lo, hi) <= Clamp(n, lo, hi)
  {
  }
}

=== FILE: json.dfy ===
/**
 * JSON values as the API routes receive and return them, with JavaScript's
 * truthiness and object destructuring.
 */
module Json {
  import opened Wrappers

  datatype Json =
    | JNull
    | JBool(b: bool)
    | JNum(n: real)
    | JStr(s: string)
    | JArr(items: seq<Json>)
    | JObj(fields: map<string, Json>)

  /** A route's answer: an HTTP status and a JSON body. */
  datatype Response = Response(status: int, body: Json)

  /** `!!v` for a property that may be absent (`undefined`). */
  predicate Truthy(v: Option<Json>) {
    match v
    case None => false
    case Some(JNull) => false
    case Some(JBool(b)) => b
    case Some(JNum(n)) => n != 0.0
    case Some(JStr(s)) => s != ""
    case Some(JArr(_)) => true
    case Some(JObj(_)) => true
  }

  /** `const { key } = v` on a non-null value: the property, or `undefined`. */
  function Property(v: Json, key: string): (r: Option<Json>)
    ensures r.Some? <==> v.JObj? && key in v.fields
    ensures r.Some? ==> r.value == v.fields[key]
  {
    if v.JObj? && key in v.fields then Some(v.fields[key]) else None
  }

  /** `{ error: message }` with the given status. */
  function ErrorResponse(status: int, message: string): Response {
    Response(status, JObj(map["error" := JStr(message)]))
  }

  /** `{ error: 'Internal server error' }`, the answer of a route whose body throws. */
  function InternalError(): Response {
    ErrorResponse(500, "Internal server error")
  }
}

=== FILE: lists.dfy ===
/** Relations between lists that the filters and the bounded logs keep. */
module Lists {

  /** `xs` is `ys` with some elements left out, in the same order. */
  ghost predicate IsSubsequence<T>(xs: seq<T>, ys: seq<T>)
    decreases |ys|
  {
    if xs == [] then true
    else if ys == [] then false
    else if xs[0] == ys[0] then IsSubsequence(xs[1..], ys[1..])
    else IsSubsequence(xs, ys[1..])
  }

  /** `xs` is a trailing part of `ys`. */
  predicate IsSuffix<T(==)>(xs: seq<T>, ys: seq<T>) {
    |xs| <= |ys| && ys[|ys| - |xs|..] == xs
  }
}

=== FILE: live_demo.dfy ===
/**
 * The live demo's message handler (src/app/demo/page.tsx): messages from the
 * detection stream update the latest inference, the video frame and a short
 * history that logs each change in the number of people detected.
 *
 * The WebSocket itself is not modelled: messages arrive already parsed, and
 * the wall-clock time of an entry is a parameter.
 */
module LiveDemo {
  import opened Wrappers
  import opened Text
  import opened Lists
  import opened Detections

  datatype InferenceData = InferenceData(detections: seq<Detection>, confidence: real, fps: real)

  /** A parsed stream message; a frame message may come without a `frame` field. */
  datatype Message =
    | Connection(message: string)
    | Inference(data: InferenceData)
    | Frame(frame: Option<string>)

  /** The history keeps at most this many entries. */
  const HistoryLimit: nat := 10

  /** The text logged for a detection count. */
  function DetectionText(n: nat): string {
    if n == 0 then "No people detected"
    else if n == 1 then "1 person detected"
    else NatToString(n) + " people detected"
  }

  const PeopleSuffix: string := " people detected"

  /** Reading a logged text back as the count it reports. */
  function CountOf(t: string): Option<nat> {
    if t == "No people detected" then Some(0)
    else if t == "1 person detected" then Some(1)
    else if |t| > |PeopleSuffix| && t[|t| - |PeopleSuffix|..] == PeopleSuffix
         && forall k :: 0 <= k < |t| - |PeopleSuffix| ==> IsDigit(t[k])
    then Some(ParseDigits(t[..|t| - |PeopleSuffix|]))
    else None
  }

  /** The logged text tells the count it was logged for. */
  lemma CountOfDetectionText(n: nat)
    ensures CountOf(DetectionText(n)) == Some(n)
  {
    if n >= 2 {
      var s := NatToString(n);
      var t := DetectionText(n);
      assert t[0] == s[0] && IsDigit(t[0]);
      assert t[0] != "No people detected"[0];
      if n < 10 {
        assert t[0] == DigitChar(n) != '1';
      } else {
        assert t[1] == s[1] && IsDigit(t[1]);
        assert t[1] != "1 person detected"[1];
      }
      assert t[..|t| - |PeopleSuffix|] == s;
      assert t[|t| - |PeopleSuffix|..] == PeopleSuffix;
      ParseNatToString(n);
    }
  }

  /** Hence different counts are logged with different texts. */
  lemma DetectionTextInjective(m: nat, n: nat)
    requires DetectionText(m) == DetectionText(n)
    ensures m == n
  {
    CountOfDetectionText(m);
    CountOfDetectionText(n);
  }

  /** `${timeString}: ${detectionText}`. */
  function Entry(time: string, n: nat): string {
    time + ": " + DetectionText(n)
  }

  /** `prev.slice(-9)`: the last nine entries, or all of them when there are fewer. */
  function LastNine(history: seq<string>): seq<string> {
    if |history| <= HistoryLimit - 1 then history else history[|history| - (HistoryLimit - 1)..]
  }

  /** `[...prev.slice(-9), entry]`: the entry appended, the oldest dropped beyond ten. */
  function Appended(history: seq<string>, entry: string): (r: seq<string>)
    ensures |r| <= HistoryLimit
    ensures |r| > 0 && r[|r| - 1] == entry
    ensures IsSuffix(r, history + [entry])
    ensures |history| < HistoryLimit ==> r == history + [entry]
    ensures |history| >= HistoryLimit - 1 ==> |r| == HistoryLimit
  {
    var r := LastNine(history) + [entry];
    assert (history + [entry])[|history + [entry]| - |r|..] == r;
    r
  }

  /** Once the history is full, each new entry drops exactly the oldest one. */
  lemma FullHistoryDropsOldest(history: seq<string>, entry: string)
    requires |history| == HistoryLimit
    ensures Appended(history, entry) == history[1..] + [entry]
  {
  }

  /** The headline for a detection count. */
  datatype DemoStatus = Invisible | PartiallyDetected | FullyDetected

  function Status(n: nat): (s: DemoStatus)
    ensures s == Invisible <==> n == 0
    ensures s == FullyDetected <==> n >= 2
  {
    if n == 0 then Invisible else if n == 1 then PartiallyDetected else FullyDetected
  }

  function StatusLabel(s: DemoStatus): string {
    match s
    case Invisible => "INVISIBLE"
    case PartiallyDetected => "PARTIALLY DETECTED"
    case FullyDetected => "FULLY DETECTED"
  }

  /** The headline says INVISIBLE exactly when the history would log "No people detected". */
  lemma StatusAgreesWithHistoryText(n: nat)
    ensures StatusLabel(Status(n)) == "INVISIBLE" <==> DetectionText(n) == "No people detected"
  {
    if n >= 2 {
      var t := DetectionText(n);
      assert IsDigit(t[0]) by { assert t[0] == NatToString(n)[0]; }
    }
  }

  const FramePrefix: string := "data:image/jpeg;base64,"

  /** The live demo page's stream state. */
  class DemoPage {
    var isConnected: bool
    var inferenceData: Option<InferenceData>
    var currentFrame: Option<string>
    var history: seq<string>
    var lastDetectionCount: int

    /** The history is bounded, and the last count is a count or the "none yet" value -1. */
    ghost predicate Valid()
      reads this
    {
      |history| <= HistoryLimit && lastDetectionCount >= -1
    }

    constructor ()
      ensures Valid()
      ensures !isConnected && inferenceData == None && currentFrame == None
      ensures history == [] && lastDetectionCount == -1
    {
      isConnected := false;
      inferenceData := None;
      currentFrame := None;
      history := [];
      lastDetectionCount := -1;
    }

    /** The stream opened. */
    method Connected()
      modifies this`isConnected
      ensures isConnected
    {
      isConnected := true;
    }

    /** `handleWebSocketMessage`, with the local time as `time`. */
    method HandleMessage(msg: Message, time: string)
      requires Valid()
      modifies this`inferenceData, this`currentFrame, this`history, this`lastDetectionCount
      ensures Valid()
      ensures msg.Connection? ==>
        && inferenceData == old(inferenceData) && currentFrame == old(currentFrame)
        && history == old(history) && lastDetectionCount == old(lastDetectionCount)
      ensures msg.Inference? ==> inferenceData == Some(msg.data) && currentFrame == old(currentFrame)
      ensures msg.Inference? && |msg.data.detections| != old(lastDetectionCount) ==>
        && history == Appended(old(history), Entry(time, |msg.data.detections|))
        && lastDetectionCount == |msg.data.detections|
      ensures msg.Inference? && |msg.data.detections| == old(lastDetectionCount) ==>
        history == old(history) && lastDetectionCount == old(lastDetectionCount)
      ensures msg.Frame? ==>
        && inferenceData == old(inferenceData) && history == old(history)
        && lastDetectionCount == old(lastDetectionCount)
      ensures msg.Frame? && msg.frame.Some? && msg.frame.value != "" ==>
        currentFrame == Some(FramePrefix + msg.frame.value)
      ensures msg.Frame? && (msg.frame.None? || msg.frame.value == "") ==>
        currentFrame == old(currentFrame)
    {
      match msg
      case Connection(_) =>
      case Inference(data) =>
        ReceiveInference(data, time);
      case Frame(frame) =>
        ReceiveFrame(frame);
    }

    /** An inference message: store it, and log the count when it changed. */
    method ReceiveInference(data: InferenceData, time: string)
      requires Valid()
      modifies this`inferenceData, this`history, this`lastDetectionCount
      ensures Valid()
      ensures inferenceData == Some(data)
      ensures |data.detections| != old(lastDetectionCount) ==>
        && history == Appended(old(history), Entry(time, |data.detections|))
        && lastDetectionCount == |data.detections|
      ensures |data.detections| == old(lastDetectionCount) ==>
        history == old(history) && lastDetectionCount == old(lastDetectionCount)
    {
      inferenceData := Some(data);
      var n := |data.detections|;
      if n != lastDetectionCount {
        var entry := Entry(time, n);
        var next := Appended(history, entry);
        history := next;
        lastDetectionCount := n;
      }
    }

    /** A frame message: show a non-empty frame as a JPEG data URL. */
    method ReceiveFrame(frame: Option<string>)
      modifies this`currentFrame
      ensures frame.Some? && frame.value != "" ==> currentFrame == Some(FramePrefix + frame.value)
      ensures frame.None? || frame.value == "" ==> currentFrame == old(currentFrame)
    {
      if frame.Some? && frame.value != "" {
        currentFrame := Some(FramePrefix + frame.value);
      }
    }

    /** `disconnectFromStream`, apart from closing the socket. */
    method Disconnect()
      modifies this`isConnected, this`inferenceData, this`currentFrame
      ensures !isConnected && inferenceData == None && currentFrame == None
    {
      isConnected := false;
      inferenceData := None;
      currentFrame := None;
    }

    /** `resetDemo`: the history is emptied, and the stream closed if it was open. */
    method ResetDemo()
      requires Valid()
      modifies this
      ensures Valid()
      ensures history == [] && lastDetectionCount == -1
      ensures old(isConnected) ==> !isConnected && inferenceData == None && currentFrame == None
      ensures !old(isConnected) ==>
        !isConnected && inferenceData == old(inferenceData) && currentFrame == old(currentFrame)
    {
      history := [];
      lastDetectionCount := -1;
      if isConnected {
        Disconnect();
      }
    }
  }

  /** After a reset, the next inference message is always logged. */
  method ResetThenInference(page: DemoPage, data: InferenceData, time: string)
    requires page.Valid()
    modifies page
    ensures page.Valid()
    ensures page.history == [Entry(time, |data.detections|)]
    ensures page.lastDetectionCount == |data.detections|
  {
    page.ResetDemo();
    page.HandleMessage(Inference(data), time);
  }
}

=== FILE: order_modal.dfy ===
/**
 * The order dialog for a saved design (src/components/OrderModal.tsx): size,
 * colour and quantity are chosen, and the design goes to the cart at a price
 * set by the clothing type and the design's test result.
 */
module OrderModal {
  import opened Wrappers
  import opened Designs

  function Sizes(): seq<string> {
    ["XS", "S", "M", "L", "XL", "XXL"]
  }

  function Colors(): seq<string> {
    ["Black", "White", "Navy", "Gray", "Forest Green"]
  }

  /** The price before the privacy surcharge. */
  function BasePrice(c: ClothingType): real {
    if c == Shirt then 29.99 else 59.99
  }

  /** `design.testResults?.success`. */
  predicate Passed(d: SavedDesign) {
    d.testResults.Some? && d.testResults.value.success
  }

  /** `getPrice`: the base price, 20% more for a design that passed its test. */
  function Price(d: SavedDesign): (p: real)
    ensures BasePrice(d.clothingType) <= p <= BasePrice(d.clothingType) * 1.2
    ensures 29.99 <= p <= 71.988
    ensures !Passed(d) ==> p == BasePrice(d.clothingType)
    ensures Passed(d) ==> p == BasePrice(d.clothingType) * 1.2
  {
    BasePrice(d.clothingType) * (if Passed(d) then 1.2 else 1.0)
  }

  /** Passing the test is worth exactly a 20% surcharge on the same design. */
  lemma PassedCostsTwentyPercentMore(d: SavedDesign, score: int)
    ensures Price(d.(testResults := Some(TestScore(true, score)))) == Price(d.(testResults := None)) * 1.2
  {
  }

  /** `design-${design.id}-${selectedSize}-${selectedColor}`. */
  function CartItemId(designId: string, size: string, color: string): string {
    "design-" + designId + "-" + size + "-" + color
  }

  /** The text after the last dash (all of it when there is none). */
  function AfterLastDash(s: string): (r: string)
    ensures |r| <= |s| && r == s[|s| - |r|..]
    ensures '-' !in r
    decreases |s|
  {
    if s == [] then []
    else if s[|s| - 1] == '-' then []
    else AfterLastDash(s[..|s| - 1]) + [s[|s| - 1]]
  }

  /** The text before the last dash. */
  function BeforeLastDash(s: string): string {
    var tail := AfterLastDash(s);
    if |tail| < |s| then s[..|s| - |tail| - 1] else []
  }

  /** A dash-free last segment is read back after joining with a dash. */
  lemma {:induction false} DashJoinSplit(a: string, b: string)
    requires '-' !in b
    ensures AfterLastDash(a + "-" + b) == b
    ensures BeforeLastDash(a + "-" + b) == a
    decreases |b|
  {
    var s := a + "-" + b;
    if b == [] {
      assert s[|s| - 1] == '-';
    } else {
      var b' := b[..|b| - 1];
      assert s[..|s| - 1] == a + "-" + b';
      DashJoinSplit(a, b');
    }
  }

  /** Hence the id tells the design, the size and the colour, as long as sizes and colours have no dash. */
  lemma CartItemIdInjective(id1: string, size1: string, color1: string, id2: string, size2: string, color2: string)
    requires '-' !in size1 && '-' !in color1 && '-' !in size2 && '-' !in color2
    requires CartItemId(id1, size1, color1) == CartItemId(id2, size2, color2)
    ensures id1 == id2 && size1 == size2 && color1 == color2
  {
    DashJoinSplit("design-" + id1 + "-" + size1, color1);
    DashJoinSplit("design-" + id2 + "-" + size2, color2);
    DashJoinSplit("design-" + id1, size1);
    DashJoinSplit("design-" + id2, size2);
    var p1, p2 := "design-" + id1, "design-" + id2;
    assert id1 == p1[7..] && id2 == p2[7..];
  }

  /** Every offered size and colour is dash-free. */
  lemma ChoicesDashFree()
    ensures forall s :: s in Sizes() ==> '-' !in s
    ensures forall c :: c in Colors() ==> '-' !in c
  {
    assert forall s :: s in Sizes() ==> s == "XS" || s == "S" || s == "M" || s == "L" || s == "XL" || s == "XXL";
  }

  /** What the dialog puts in the cart. */
  datatype DesignCartItem = DesignCartItem(
    id: string,
    design: SavedDesign,
    quantity: int,
    selectedSize: string,
    selectedColor: string,
    price: real)

  /** The total the dialog shows, price times quantity. */
  function Total(d: SavedDesign, quantity: int): real {
    Price(d) * quantity as real
  }

  /** The dialog's state for one design. */
  class OrderForm {
    const design: SavedDesign
    var selectedSize: string
    var selectedColor: string
    var quantity: int

    /** The choices are offered ones and at least one item is ordered. */
    ghost predicate Valid()
      reads this
    {
      selectedSize in Sizes() && selectedColor in Colors() && quantity >= 1
    }

    constructor (design: SavedDesign)
      ensures Valid()
      ensures this.design == design && selectedSize == "M" && selectedColor == "Black" && quantity == 1
    {
      this.design := design;
      selectedSize := "M";
      selectedColor := "Black";
      quantity := 1;
    }

    method SelectSize(size: string)
      requires Valid() && size in Sizes()
      modifies this`selectedSize
      ensures Valid() && selectedSize == size
    {
      selectedSize := size;
    }

    method SelectColor(color: string)
      requires Valid() && color in Colors()
      modifies this`selectedColor
      ensures Valid() && selectedColor == color
    {
      selectedColor := color;
    }

    /** The minus button: never below 1. */
    method Decrement()
      requires Valid()
      modifies this`quantity
      ensures Valid() && quantity == if old(quantity) > 1 then old(quantity) - 1 else 1
    {
      quantity := if quantity - 1 > 1 then quantity - 1 else 1;
    }

    method Increment()
      requires Valid()
      modifies this`quantity
      ensures Valid() && quantity == old(quantity) + 1
    {
      quantity := quantity + 1;
    }

    /** `handleAddToCart`: the item handed to the cart, with the dialog's choices and the current price. */
    method CartItem() returns (item: DesignCartItem)
      requires Valid()
      ensures item.id == CartItemId(design.id, selectedSize, selectedColor)
      ensures item.design == design && item.quantity == quantity
      ensures item.selectedSize == selectedSize && item.selectedColor == selectedColor
      ensures item.price == Price(design)
      ensures item.price * item.quantity as real == Total(design, quantity)
      ensures '-' !in item.selectedSize && '-' !in item.selectedColor
    {
      ChoicesDashFree();
      item := DesignCartItem(CartItemId(design.id, selectedSize, selectedColor), design, quantity,
        selectedSize, selectedColor, Price(design));
    }
  }
}

=== FILE: shop.dfy ===
/**
 * The shop page: the catalogue filter and the shopping cart with its
 * add-to-cart dialog (src/app/shop/page.tsx).
 *
 * Prices are exact reals; a cart line's quantity is an unbounded integer.
 */
module Shop {
  import opened Wrappers
  import opened Text
  import opened Lists

  datatype Category = Shirt | Hoodie | Jacket

  datatype PrivacyLevel = Basic | Enhanced | Maximum

  datatype Product = Product(
    id: string,
    name: string,
    description: string,
    price: real,
    category: Category,
    sizes: seq<string>,
    colors: seq<string>,
    privacyLevel: PrivacyLevel,
    inStock: bool)

  /** The value of a filter select box: the 'all' option or one specific value. */
  datatype Choice<T> = All | Only(value: T)

  datatype CartItem = CartItem(
    productId: string,
    product: Product,
    quantity: int,
    selectedSize: string,
    selectedColor: string)

  /** What the cart merges lines on: product id, size and colour. */
  datatype LineKey = LineKey(productId: string, size: string, color: string)

  function KeyOf(item: CartItem): LineKey {
    LineKey(item.productId, item.selectedSize, item.selectedColor)
  }

  // ---------------------------------------------------------------------------
  // Catalogue filter
  // ---------------------------------------------------------------------------

  /** Name or description contains the search term, ignoring case. */
  predicate MatchesSearch(p: Product, term: string) {
    Contains(ToLower(p.name), ToLower(term)) || Contains(ToLower(p.description), ToLower(term))
  }

  predicate MatchesCategory(p: Product, category: Choice<Category>) {
    category.All? || p.category == category.value
  }

  predicate MatchesPrivacyLevel(p: Product, level: Choice<PrivacyLevel>) {
    level.All? || p.privacyLevel == level.value
  }

  /** The three filter conditions together. */
  predicate Kept(p: Product, term: string, category: Choice<Category>, level: Choice<PrivacyLevel>) {
    MatchesSearch(p, term) && MatchesCategory(p, category) && MatchesPrivacyLevel(p, level)
  }

  /** `filteredProducts`: the products the current filters keep, in catalogue order. */
  function FilterProducts(products: seq<Product>, term: string, category: Choice<Category>,
                          level: Choice<PrivacyLevel>): (r: seq<Product>)
    ensures forall p :: p in r <==> p in products && Kept(p, term, category, level)
    ensures IsSubsequence(r, products)
    decreases |products|
  {
    if products == [] then []
    else
      var rest := FilterProducts(products[1..], term, category, level);
      if Kept(products[0], term, category, level) then
        assert ([products[0]] + rest)[1..] == rest;
        [products[0]] + rest
      else
        assert rest != [] ==> rest[0] in rest && rest[0] != products[0];
        rest
  }

  /** `filter` keeps every copy of a product it keeps: a kept product appears as often as in the catalogue, a dropped one never. */
  lemma {:induction false} FilterCounts(products: seq<Product>, term: string, category: Choice<Category>,
                                        level: Choice<PrivacyLevel>)
    ensures var r := FilterProducts(products, term, category, level);
      forall p :: multiset(r)[p] == if Kept(p, term, category, level) then multiset(products)[p] else 0
    decreases |products|
  {
    if products != [] {
      FilterCounts(products[1..], term, category, level);
      assert products == [products[0]] + products[1..];
    }
  }

  /** An empty search term with both selects on 'all' shows the whole catalogue. */
  lemma {:induction false} NoFilterKeepsAll(products: seq<Product>)
    ensures FilterProducts(products, "", All, All) == products
    decreases |products|
  {
    if products != [] {
      NoFilterKeepsAll(products[1..]);
      ContainsEmpty(ToLower(products[0].name));
      assert ToLower("") == "";
    }
  }

  // ---------------------------------------------------------------------------
  // Cart arithmetic
  // ---------------------------------------------------------------------------

  /** `getTotalPrice`: the left fold of price times quantity over the cart. */
  function TotalPrice(cart: seq<CartItem>): real
    decreases |cart|
  {
    if cart == [] then 0.0
    else TotalPrice(cart[..|cart| - 1]) + LineAmount(cart[|cart| - 1])
  }

  /** `getCartItemCount`: the left fold of the quantities over the cart. */
  function ItemCount(cart: seq<CartItem>): int
    decreases |cart|
  {
    if cart == [] then 0
    else ItemCount(cart[..|cart| - 1]) + cart[|cart| - 1].quantity
  }

  /** What one line adds to the total: price times quantity. */
  function LineAmount(item: CartItem): real {
    item.product.price * item.quantity as real
  }

  /** Replacing one line changes the item count by the difference of the two quantities. */
  lemma {:induction false} ItemCountReplace(cart: seq<CartItem>, i: nat, item: CartItem)
    requires i < |cart|
    ensures ItemCount(cart[i := item]) == ItemCount(cart) - cart[i].quantity + item.quantity
    decreases |cart|
  {
    var n := |cart|;
    if i < n - 1 {
      ItemCountReplace(cart[..n - 1], i, item);
      assert cart[i := item][..n - 1] == cart[..n - 1][i := item];
    } else {
      assert cart[i := item][..n - 1] == cart[..n - 1];
    }
  }

  /** Replacing one line changes the total price by the difference of the two line amounts. */
  lemma {:induction false} TotalPriceReplace(cart: seq<CartItem>, i: nat, item: CartItem)
    requires i < |cart|
    ensures TotalPrice(cart[i := item]) == TotalPrice(cart) - LineAmount(cart[i]) + LineAmount(item)
    decreases |cart|
  {
    var n := |cart|;
    if i < n - 1 {
      TotalPriceReplace(cart[..n - 1], i, item);
      assert cart[i := item][..n - 1] == cart[..n - 1][i := item];
    } else {
      assert cart[i := item][..n - 1] == cart[..n - 1];
    }
  }

  lemma ItemCountAppend(cart: seq<CartItem>, item: CartItem)
    ensures ItemCount(cart + [item]) == ItemCount(cart) + item.quantity
    ensures TotalPrice(cart + [item]) == TotalPrice(cart) + LineAmount(item)
  {
    assert (cart + [item])[..|cart|] == cart;
  }

  /** Removing line `i` takes exactly its quantity and its amount off the totals. */
  lemma {:induction false} RemoveAtTotals(cart: seq<CartItem>, i: nat)
    requires i < |cart|
    ensures ItemCount(RemoveAt(cart, i)) == ItemCount(cart) - cart[i].quantity
    ensures TotalPrice(RemoveAt(cart, i)) == TotalPrice(cart) - LineAmount(cart[i])
    decreases |cart|
  {
    var n := |cart|;
    var r := RemoveAt(cart, i);
    if i < n - 1 {
      RemoveAtTotals(cart[..n - 1], i);
      assert r[..|r| - 1] == RemoveAt(cart[..n - 1], i);
      assert r[|r| - 1] == cart[n - 1];
    } else {
      assert r == cart[..n - 1];
    }
  }

  /** With every quantity at least 1, the item count is at least the number of lines. */
  lemma {:induction false} ItemCountAtLeastLines(cart: seq<CartItem>)
    requires forall i :: 0 <= i < |cart| ==> cart[i].quantity >= 1
    ensures ItemCount(cart) >= |cart|
    decreases |cart|
  {
    if cart != [] {
      ItemCountAtLeastLines(cart[..|cart| - 1]);
    }
  }

  // ---------------------------------------------------------------------------
  // Cart transitions, as functions of the cart
  // ---------------------------------------------------------------------------

  /** No two lines share a (product id, size, colour) key. */
  predicate UniqueKeys(cart: seq<CartItem>) {
    forall i, j :: 0 <= i < j < |cart| ==> KeyOf(cart[i]) != KeyOf(cart[j])
  }

  /** `cart.find(...)`: the index of the first line with this key. */
  function FindLine(cart: seq<CartItem>, key: LineKey): (r: Option<nat>)
    ensures r.Some? ==> r.value < |cart| && KeyOf(cart[r.value]) == key
    ensures r.Some? ==> forall j :: 0 <= j < r.value ==> KeyOf(cart[j]) != key
    ensures r.None? ==> forall j :: 0 <= j < |cart| ==> KeyOf(cart[j]) != key
    decreases |cart|
  {
    if cart == [] then None
    else if KeyOf(cart[0]) == key then Some(0)
    else match FindLine(cart[1..], key)
      case None => None
      case Some(k) => Some(k + 1)
  }

  /** The cart after adding `qty` of a product in a size and colour: merge or append. */
  function Added(cart: seq<CartItem>, product: Product, size: string, color: string, qty: int): (r: seq<CartItem>)
    ensures FindLine(cart, LineKey(product.id, size, color)).Some? ==>
      var i := FindLine(cart, LineKey(product.id, size, color)).value;
      r == cart[i := cart[i].(quantity := cart[i].quantity + qty)]
    ensures FindLine(cart, LineKey(product.id, size, color)).None? ==>
      r == cart + [CartItem(product.id, product, qty, size, color)]
  {
    match FindLine(cart, LineKey(product.id, size, color))
    case Some(i) => cart[i := cart[i].(quantity := cart[i].quantity + qty)]
    case None => cart + [CartItem(product.id, product, qty, size, color)]
  }

  /** Adding keeps the (product id, size, colour) keys unique and every quantity positive. */
  lemma AddedKeepsInvariant(cart: seq<CartItem>, product: Product, size: string, color: string, qty: int)
    requires UniqueKeys(cart) && forall i :: 0 <= i < |cart| ==> cart[i].quantity >= 1
    requires qty >= 1
    ensures UniqueKeys(Added(cart, product, size, color, qty))
    ensures forall i :: 0 <= i < |Added(cart, product, size, color, qty)| ==> Added(cart, product, size, color, qty)[i].quantity >= 1
  {
    var key := LineKey(product.id, size, color);
    var r := Added(cart, product, size, color, qty);
    match FindLine(cart, key)
    case Some(i) =>
      assert forall j :: 0 <= j < |r| ==> KeyOf(r[j]) == KeyOf(cart[j]);
    case None =>
      assert forall j :: 0 <= j < |cart| ==> r[j] == cart[j];
      assert KeyOf(r[|cart|]) == key;
  }

  /** Adding `qty` raises the item count by `qty`. */
  lemma AddedItemCount(cart: seq<CartItem>, product: Product, size: string, color: string, qty: int)
    ensures ItemCount(Added(cart, product, size, color, qty)) == ItemCount(cart) + qty
  {
    match FindLine(cart, LineKey(product.id, size, color))
    case Some(i) =>
      ItemCountReplace(cart, i, cart[i].(quantity := cart[i].quantity + qty));
    case None =>
      ItemCountAppend(cart, CartItem(product.id, product, qty, size, color));
  }

  /** Adding `qty` to line `i` raises the total by `qty` units of that line's price. */
  lemma MergedTotalPrice(cart: seq<CartItem>, i: nat, qty: int)
    requires i < |cart|
    ensures TotalPrice(cart[i := cart[i].(quantity := cart[i].quantity + qty)])
         == TotalPrice(cart) + cart[i].product.price * qty as real
  {
    var line := cart[i].(quantity := cart[i].quantity + qty);
    var price, q := cart[i].product.price, cart[i].quantity;
    TotalPriceReplace(cart, i, line);
    Distribute(price, q, qty);
  }

  /** Adding `qty` raises the total by `qty` units of the price the merged or new line carries. */
  lemma AddedTotalPrice(cart: seq<CartItem>, product: Product, size: string, color: string, qty: int)
    ensures TotalPrice(Added(cart, product, size, color, qty)) == TotalPrice(cart) + UnitPrice(cart, product, size, color) * qty as real
  {
    match FindLine(cart, LineKey(product.id, size, color))
    case Some(i) => AddedTotalMerged(cart, product, size, color, qty, i);
    case None => AddedTotalAppended(cart, product, size, color, qty);
  }

  lemma AddedTotalMerged(cart: seq<CartItem>, product: Product, size: string, color: string, qty: int, i: nat)
    requires FindLine(cart, LineKey(product.id, size, color)) == Some(i)
    ensures TotalPrice(Added(cart, product, size, color, qty)) == TotalPrice(cart) + UnitPrice(cart, product, size, color) * qty as real
  {
    assert UnitPrice(cart, product, size, color) == cart[i].product.price;
    var merged := cart[i := cart[i].(quantity := cart[i].quantity + qty)];
    assert Added(cart, product, size, color, qty) == merged;
    MergedTotalPrice(cart, i, qty);
  }

  lemma AddedTotalAppended(cart: seq<CartItem>, product: Product, size: string, color: string, qty: int)
    requires FindLine(cart, LineKey(product.id, size, color)).None?
    ensures TotalPrice(Added(cart, product, size, color, qty)) == TotalPrice(cart) + UnitPrice(cart, product, size, color) * qty as real
  {
    var line := CartItem(product.id, product, qty, size, color);
    assert Added(cart, product, size, color, qty) == cart + [line];
    ItemCountAppend(cart, line);
    assert UnitPrice(cart, product, size, color) == product.price;
  }

  /** The unit price the added items are charged at: the merged line's, or the product's for a new line. */
  function UnitPrice(cart: seq<CartItem>, product: Product, size: string, color: string): real {
    match FindLine(cart, LineKey(product.id, size, color))
    case Some(i) => cart[i].product.price
    case None => product.price
  }

  lemma Distribute(price: real, a: int, b: int)
    ensures price * (a + b) as real == price * a as real + price * b as real
  {
  }

  /** `cart.filter((_, i) => i !== index)`: line `index` removed, the rest in order. */
  function RemoveAt(cart: seq<CartItem>, index: nat): (r: seq<CartItem>)
    ensures index < |cart| ==> |r| == |cart| - 1
    ensures index >= |cart| ==> r == cart
    ensures forall j :: 0 <= j < index && j < |r| ==> r[j] == cart[j]
    ensures forall j :: index <= j < |r| ==> r[j] == cart[j + 1]
  {
    if index < |cart| then cart[..index] + cart[index + 1..] else cart
  }

  lemma RemoveAtKeepsUnique(cart: seq<CartItem>, index: nat)
    requires UniqueKeys(cart)
    ensures UniqueKeys(RemoveAt(cart, index))
  {
    var r := RemoveAt(cart, index);
    forall i, j | 0 <= i < j < |r|
      ensures KeyOf(r[i]) != KeyOf(r[j])
    {
      var i' := if i < index then i else i + 1;
      var j' := if j < index then j else j + 1;
      assert r[i] == cart[i'] && r[j] == cart[j'];
    }
  }

  // ---------------------------------------------------------------------------
  // The page state
  // ---------------------------------------------------------------------------

  /** The state of the shop page that its handlers rewrite. */
  class ShopPage {
    var products: seq<Product>
    var cart: seq<CartItem>
    var searchTerm: string
    var selectedCategory: Choice<Category>
    var selectedPrivacyLevel: Choice<PrivacyLevel>
    var selectedProduct: Option<Product>
    var selectedSize: string
    var selectedColor: string
    var quantity: int

    /** Keys are unique, every line holds at least one item, the dialog quantity is at least 1. */
    ghost predicate Valid()
      reads this
    {
      && UniqueKeys(cart)
      && (forall i :: 0 <= i < |cart| ==> cart[i].quantity >= 1)
      && quantity >= 1
    }

    constructor ()
      ensures Valid()
      ensures products == MockProducts() && cart == []
      ensures searchTerm == "" && selectedCategory == All && selectedPrivacyLevel == All
      ensures selectedProduct == None && selectedSize == "" && selectedColor == "" && quantity == 1
    {
      products := MockProducts();
      cart := [];
      searchTerm := "";
      selectedCategory := All;
      selectedPrivacyLevel := All;
      selectedProduct := None;
      selectedSize := "";
      selectedColor := "";
      quantity := 1;
    }

    /** The product grid under the current filters. */
    function FilteredProducts(): seq<Product>
      reads this
    {
      FilterProducts(products, searchTerm, selectedCategory, selectedPrivacyLevel)
    }

    function TotalPriceOfCart(): real
      reads this
    {
      TotalPrice(cart)
    }

    function CartItemCount(): int
      reads this
    {
      ItemCount(cart)
    }

    /** The cart badge shows exactly when the cart has a line. */
    lemma BadgeShownIffNonEmpty()
      requires Valid()
      ensures CartItemCount() > 0 <==> |cart| > 0
    {
      ItemCountAtLeastLines(cart);
    }

    method SetSearchTerm(term: string)
      modifies this
      ensures searchTerm == term
      ensures cart == old(cart) && products == old(products) && selectedCategory == old(selectedCategory)
      ensures selectedPrivacyLevel == old(selectedPrivacyLevel) && selectedProduct == old(selectedProduct)
      ensures selectedSize == old(selectedSize) && selectedColor == old(selectedColor) && quantity == old(quantity)
    {
      searchTerm := term;
    }

    method SetCategory(category: Choice<Category>)
      modifies this
      ensures selectedCategory == category
      ensures cart == old(cart) && products == old(products) && searchTerm == old(searchTerm)
      ensures selectedPrivacyLevel == old(selectedPrivacyLevel) && selectedProduct == old(selectedProduct)
      ensures selectedSize == old(selectedSize) && selectedColor == old(selectedColor) && quantity == old(quantity)
    {
      selectedCategory := category;
    }

    method SetPrivacyLevel(level: Choice<PrivacyLevel>)
      modifies this
      ensures selectedPrivacyLevel == level
      ensures cart == old(cart) && products == old(products) && searchTerm == old(searchTerm)
      ensures selectedCategory == old(selectedCategory) && selectedProduct == old(selectedProduct)
      ensures selectedSize == old(selectedSize) && selectedColor == old(selectedColor) && quantity == old(quantity)
    {
      selectedPrivacyLevel := level;
    }

    /** "Clear Filters": the whole catalogue is shown again. */
    method ClearFilters()
      modifies this
      ensures searchTerm == "" && selectedCategory == All && selectedPrivacyLevel == All
      ensures FilteredProducts() == products
      ensures cart == old(cart) && products == old(products) && selectedProduct == old(selectedProduct)
      ensures selectedSize == old(selectedSize) && selectedColor == old(selectedColor) && quantity == old(quantity)
    {
      searchTerm := "";
      selectedCategory := All;
      selectedPrivacyLevel := All;
      NoFilterKeepsAll(products);
    }

    /** Opening the dialog of a product. */
    method SelectProduct(p: Product)
      modifies this
      ensures selectedProduct == Some(p)
      ensures cart == old(cart) && products == old(products) && searchTerm == old(searchTerm)
      ensures selectedCategory == old(selectedCategory) && selectedPrivacyLevel == old(selectedPrivacyLevel)
      ensures selectedSize == old(selectedSize) && selectedColor == old(selectedColor) && quantity == old(quantity)
    {
      selectedProduct := Some(p);
    }

    method SelectSize(size: string)
      modifies this
      ensures selectedSize == size
      ensures cart == old(cart) && products == old(products) && searchTerm == old(searchTerm)
      ensures selectedCategory == old(selectedCategory) && selectedPrivacyLevel == old(selectedPrivacyLevel)
      ensures selectedProduct == old(selectedProduct) && selectedColor == old(selectedColor) && quantity == old(quantity)
    {
      selectedSize := size;
    }

    method SelectColor(color: string)
      modifies this
      ensures selectedColor == color
      ensures cart == old(cart) && products == old(products) && searchTerm == old(searchTerm)
      ensures selectedCategory == old(selectedCategory) && selectedPrivacyLevel == old(selectedPrivacyLevel)
      ensures selectedProduct == old(selectedProduct) && selectedSize == old(selectedSize) && quantity == old(quantity)
    {
      selectedColor := color;
    }

    /** The dialog's minus button: never below 1. */
    method DecrementQuantity()
      requires Valid()
      modifies this`quantity
      ensures Valid()
      ensures quantity == if old(quantity) > 1 then old(quantity) - 1 else 1
    {
      quantity := if quantity - 1 > 1 then quantity - 1 else 1;
    }

    /** The dialog's plus button. */
    method IncrementQuantity()
      requires Valid()
      modifies this`quantity
      ensures Valid()
      ensures quantity == old(quantity) + 1
    {
      quantity := quantity + 1;
    }

    /** `addToCart`: merge into the line with the same key or append one; then clear the dialog. */
    method AddToCart()
      requires Valid()
      modifies this`cart, this`selectedProduct, this`selectedSize, this`selectedColor, this`quantity
      ensures Valid()
      ensures old(selectedProduct.None? || selectedSize == "" || selectedColor == "") ==>
        && cart == old(cart) && selectedProduct == old(selectedProduct)
        && selectedSize == old(selectedSize) && selectedColor == old(selectedColor) && quantity == old(quantity)
      ensures old(selectedProduct.Some? && selectedSize != "" && selectedColor != "") ==>
        && cart == Added(old(cart), old(selectedProduct.value), old(selectedSize), old(selectedColor), old(quantity))
        && selectedProduct == None && selectedSize == "" && selectedColor == "" && quantity == 1
      ensures old(selectedProduct.Some? && selectedSize != "" && selectedColor != "") ==>
        ItemCount(cart) == old(ItemCount(cart)) + old(quantity)
    {
      if selectedProduct.None? || selectedSize == "" || selectedColor == "" {
        return;
      }
      var p, size, color, q := selectedProduct.value, selectedSize, selectedColor, quantity;
      var before := cart;
      var after := Added(before, p, size, color, q);
      AddedKeepsInvariant(before, p, size, color, q);
      AddedItemCount(before, p, size, color, q);
      cart := after;
      selectedProduct := None;
      selectedSize := "";
      selectedColor := "";
      quantity := 1;
    }

    /** `removeFromCart`: drop line `index`; an index past the end removes nothing. */
    method RemoveFromCart(index: nat)
      requires Valid()
      modifies this`cart
      ensures Valid()
      ensures cart == RemoveAt(old(cart), index)
    {
      RemoveAtKeepsUnique(cart, index);
      cart := RemoveAt(cart, index);
    }

    /**
     * `updateCartItem`: a quantity of 0 or less removes the line, anything else
     * replaces its quantity. The source indexes the line without a check, so a
     * positive quantity needs an index inside the cart.
     */
    method UpdateCartItem(index: nat, newQuantity: int)
      requires Valid()
      requires newQuantity <= 0 || index < |cart|
      modifies this`cart
      ensures Valid()
      ensures newQuantity <= 0 ==> cart == RemoveAt(old(cart), index)
      ensures newQuantity > 0 ==> cart == old(cart)[index := old(cart)[index].(quantity := newQuantity)]
      ensures newQuantity > 0 ==> ItemCount(cart) == old(ItemCount(cart)) - old(cart)[index].quantity + newQuantity
    {
      if newQuantity <= 0 {
        RemoveFromCart(index);
        return;
      }
      var line := cart[index].(quantity := newQuantity);
      ItemCountReplace(cart, index, line);
      assert forall i :: 0 <= i < |cart| ==> KeyOf(cart[index := line][i]) == KeyOf(cart[i]);
      cart := cart[index := line];
    }
  }

  // ---------------------------------------------------------------------------
  // The catalogue fixture
  // ---------------------------------------------------------------------------

  function StealthBasicTee(): Product {
    Product("1", "Stealth Basic Tee",
      "Our entry-level privacy " + "shirt with subtle " + "anti-detection " + "patterns. Perfect for " + "everyday wear.",
      29.99, Shirt, ["S", "M", "L", "XL"], ["Black", "Navy", "Gray"], Basic, true)
  }

  function GhostModeHoodie(): Product {
    Product("2", "Ghost Mode Hoodie",
      "Advanced privacy hoodie " + "with enhanced anti-YOLO " + "technology. Stay " + "invisible to AI " + "surveillance.",
      59.99, Hoodie, ["S", "M", "L", "XL", "XXL"], ["Black", "Dark Gray", "Forest Green"], Enhanced, true)
  }

  function MaximumPrivacyJacket(): Product {
    Product("3", "Maximum Privacy Jacket",
      "Our flagship product " + "with maximum " + "anti-detection " + "capabilities. For " + "serious privacy " + "advocates.",
      89.99, Jacket, ["M", "L", "XL", "XXL"], ["Black", "Charcoal"], Maximum, true)
  }

  function UrbanCamoTee(): Product {
    Product("4", "Urban Camo Tee",
      "Street-style privacy " + "shirt that blends urban " + "aesthetics with " + "anti-detection " + "technology.",
      34.99, Shirt, ["S", "M", "L", "XL"], ["Urban Gray", "Street Black"], Basic, false)
  }

  function DigitalDisruptorHoodie(): Product {
    Product("5", "Digital Disruptor Hoodie",
      "High-tech hoodie " + "designed to confuse " + "computer vision " + "algorithms with " + "advanced pattern " + "disruption.",
      69.99, Hoodie, ["S", "M", "L", "XL"], ["Tech Black", "Cyber Blue"], Enhanced, true)
  }

  /** The five catalogue products the page starts with. */
  function MockProducts(): seq<Product> {
    [StealthBasicTee(), GhostModeHoodie(), MaximumPrivacyJacket(), UrbanCamoTee(), DigitalDisruptorHoodie()]
  }

  /** With an empty search term, the filter is decided by category and level alone. */
  lemma {:induction false} EmptySearchMatchesAll(ps: seq<Product>)
    ensures forall k :: 0 <= k < |ps| ==> MatchesSearch(ps[k], "")
  {
    assert ToLower("") == "";
    forall k | 0 <= k < |ps|
      ensures MatchesSearch(ps[k], "")
    {
      ContainsEmpty(ToLower(ps[k].name));
    }
  }

  /** One step of the filter: the first product is kept or dropped, then the rest is filtered. */
  lemma FilterStep(ps: seq<Product>, k: nat, term: string, category: Choice<Category>, level: Choice<PrivacyLevel>)
    requires k < |ps|
    ensures FilterProducts(ps[k..], term, category, level)
         == (if Kept(ps[k], term, category, level) then [ps[k]] else []) + FilterProducts(ps[k + 1..], term, category, level)
  {
    assert ps[k..][0] == ps[k] && ps[k..][1..] == ps[k + 1..];
  }

  /** With no search term and any privacy level, a product is kept exactly when its category is chosen. */
  lemma KeptByCategory(p: Product, category: Category)
    ensures Kept(p, "", Only(category), All) <==> p.category == category
  {
    assert ToLower("") == "";
    ContainsEmpty(ToLower(p.name));
  }

  /** Five products, the 2nd and 5th hoodies, the rest not: only those two pass the hoodie filter. */
  lemma {:induction false} HoodieFilterOf(ps: seq<Product>)
    requires |ps| == 5
    requires ps[1].category == Hoodie && ps[4].category == Hoodie
    requires ps[0].category != Hoodie && ps[2].category != Hoodie && ps[3].category != Hoodie
    ensures FilterProducts(ps, "", Only(Hoodie), All) == [ps[1], ps[4]]
  {
    var c := Only(Hoodie);
    assert FilterProducts(ps[5..], "", c, All) == [] by {
      assert ps[5..] == [];
    }
    assert FilterProducts(ps[4..], "", c, All) == [ps[4]] by {
      FilterStep(ps, 4, "", c, All);
      KeptByCategory(ps[4], Hoodie);
    }
    assert FilterProducts(ps[3..], "", c, All) == [ps[4]] by {
      FilterStep(ps, 3, "", c, All);
      KeptByCategory(ps[3], Hoodie);
    }
    assert FilterProducts(ps[2..], "", c, All) == [ps[4]] by {
      FilterStep(ps, 2, "", c, All);
      KeptByCategory(ps[2], Hoodie);
    }
    assert FilterProducts(ps[1..], "", c, All) == [ps[1], ps[4]] by {
      FilterStep(ps, 1, "", c, All);
      KeptByCategory(ps[1], Hoodie);
    }
    assert FilterProducts(ps[0..], "", c, All) == [ps[1], ps[4]] by {
      FilterStep(ps, 0, "", c, All);
      KeptByCategory(ps[0], Hoodie);
    }
    assert ps[0..] == ps;
  }

  /** On the catalogue: only hoodies gives the two hoodies, in catalogue order. */
  lemma HoodieFilter()
    ensures FilterProducts(MockProducts(), "", Only(Hoodie), All) == [GhostModeHoodie(), DigitalDisruptorHoodie()]
  {
    HoodieFilterOf(MockProducts());
  }
}

=== FILE: test_design_route.dfy ===
/**
 * The design-test API route (src/app/api/test-design/route.ts): it validates
 * the request, has an image generated from the screenshot, runs person
 * detection on it and turns the detection result into a confusion score.
 *
 * The two downstream calls are parameters holding what they answered.
 */
module TestDesignRoute {
  import opened Wrappers
  import opened Text
  import opened JsMath
  import opened Json

  /** The score a design needs to exceed to pass. */
  const PassThreshold: int := 70

  /** Confidences below this earn the "very uncertain" bonus. */
  const UnsureConfidence: real := 0.3

  /** The clamped score before the clamp: one point per percent of doubt, less 10 per extra person, plus the bonus. */
  function RawScore(count: int, confidence: real): int {
    if count == 0 then 100
    else if count > 0 then
      Round((1.0 - confidence) * 100.0)
        - (if count > 1 then (count - 1) * 10 else 0)
        + (if confidence < UnsureConfidence then 20 else 0)
    else 100
  }

  /** `calculateConfusionScore`: how well a design confuses the detector, from 0 to 100. */
  function ConfusionScore(count: int, confidence: real): (score: int)
    ensures 0 <= score <= 100
    ensures count <= 0 ==> score == 100
  {
    Clamp(RawScore(count, confidence), 0, 100)
  }

  /** More people detected never raises the score. */
  lemma ScoreNonIncreasingInCount(m: int, n: int, confidence: real)
    requires m <= n
    ensures ConfusionScore(n, confidence) <= ConfusionScore(m, confidence)
  {
    if m > 0 {
      assert RawScore(n, confidence) <= RawScore(m, confidence);
      ClampMonotone(RawScore(n, confidence), RawScore(m, confidence), 0, 100);
    }
  }

  /** A more confident detection never raises the score. */
  lemma ScoreNonIncreasingInConfidence(count: int, c: real, d: real)
    requires c <= d
    ensures ConfusionScore(count, d) <= ConfusionScore(count, c)
  {
    if count > 0 {
      RoundMonotone((1.0 - d) * 100.0, (1.0 - c) * 100.0);
      ClampMonotone(RawScore(count, d), RawScore(count, c), 0, 100);
    }
  }

  /** `confusionScore > 70`. */
  predicate Passes(score: int) {
    score > PassThreshold
  }

  /** With one person detected, a design passes exactly when the detector is unsure (confidence below 0.3). */
  lemma SingleDetectionPassesIffUnsure(confidence: real)
    ensures Passes(ConfusionScore(1, confidence)) <==> confidence < UnsureConfidence
  {
    var x := (1.0 - confidence) * 100.0;
    if confidence < UnsureConfidence {
      RoundMonotone(70.0, x);
      RoundInt(70);
    } else {
      RoundMonotone(x, 70.0);
      RoundInt(70);
    }
  }

  /**
   * What the image-generation call answered: a JSON body with an ok status, a
   * non-ok status with its `error` field, or a failure that throws (the fetch
   * rejects, the body is not JSON, or an ok body is `null`).
   */
  datatype Generated = GenerateOk(image: Json) | GenerateFailed(error: Option<string>) | GenerateThrew

  /** The fields of the detection result the route reads. */
  datatype InferenceResult = InferenceResult(detectionCount: int, confidence: real, detections: Json, annotatedImage: Json)

  /** What the inference call answered, with the same three outcomes as the generation call. */
  datatype Inferred = InferenceOk(result: InferenceResult) | InferenceFailed(error: Option<string>) | InferenceThrew

  /** `${errorData.error}`. */
  function ErrorText(e: Option<string>): string {
    e.GetOr("undefined")
  }

  const MissingFields: string := "Missing required fields: screenshot and clothingType"

  /** Both required fields are present and truthy. */
  predicate HasRequiredFields(body: Json) {
    Truthy(Property(body, "screenshot")) && Truthy(Property(body, "clothingType"))
  }

  /** The `testResults` object of a successful answer. */
  function TestResults(r: InferenceResult, generatedImage: Json): Json {
    var score := ConfusionScore(r.detectionCount, r.confidence);
    JObj(map[
      "success" := JBool(Passes(score)),
      "score" := JNum(score as real),
      "detectionCount" := JNum(r.detectionCount as real),
      "confidence" := JNum(r.confidence),
      "detections" := r.detections,
      "annotatedImage" := r.annotatedImage,
      "generatedImage" := generatedImage])
  }

  /**
   * `POST /api/test-design`. `request` is the parsed body (`None` when it is
   * not JSON); `generated` and `inferred` are what the two downstream calls
   * would answer.
   */
  function Post(request: Option<Json>, generated: Generated, inferred: Inferred): (resp: Response)
    ensures request.None? || request == Some(JNull) ==> resp == InternalError()
    ensures request.Some? && request.value != JNull && !HasRequiredFields(request.value) ==>
      resp == ErrorResponse(400, MissingFields)
    ensures request.Some? && request.value != JNull && HasRequiredFields(request.value) && generated.GenerateFailed? ==>
      resp == ErrorResponse(500, "Failed to generate image: " + ErrorText(generated.error))
    ensures request.Some? && request.value != JNull && HasRequiredFields(request.value) && generated.GenerateOk? && inferred.InferenceFailed? ==>
      resp == ErrorResponse(500, "Failed to run inference: " + ErrorText(inferred.error))
    ensures request.Some? && request.value != JNull && HasRequiredFields(request.value) && generated.GenerateThrew? ==>
      resp == InternalError()
    ensures request.Some? && request.value != JNull && HasRequiredFields(request.value) && generated.GenerateOk? && inferred.InferenceThrew? ==>
      resp == InternalError()
    ensures resp.status == 200 <==>
      request.Some? && request.value != JNull && HasRequiredFields(request.value)
      && generated.GenerateOk? && inferred.InferenceOk?
  {
    match request
    case None => InternalError()
    case Some(body) =>
      if body == JNull then InternalError()
      else if !HasRequiredFields(body) then ErrorResponse(400, MissingFields)
      else match generated
        case GenerateFailed(e) => ErrorResponse(500, "Failed to generate image: " + ErrorText(e))
        case GenerateThrew => InternalError()
        case GenerateOk(image) =>
          match inferred
          case InferenceFailed(e) => ErrorResponse(500, "Failed to run inference: " + ErrorText(e))
          case InferenceThrew => InternalError()
          case InferenceOk(r) =>
            Response(200, JObj(map["success" := JBool(true), "testResults" := TestResults(r, image)]))
  }

  /** A request without a screenshot or a clothing type is refused whatever the downstream calls would answer. */
  lemma RefusedBeforeDownstream(request: Json, g1: Generated, i1: Inferred, g2: Generated, i2: Inferred)
    requires request != JNull && !HasRequiredFields(request)
    ensures Post(Some(request), g1, i1) == Post(Some(request), g2, i2)
    ensures Post(Some(request), g1, i1).status == 400
  {
  }

  /** A successful answer carries the confusion score of the detection result and passes exactly when it exceeds 70. */
  lemma SuccessReportsScore(request: Json, image: Json, r: InferenceResult)
    requires request != JNull && HasRequiredFields(request)
    ensures var resp := Post(Some(request), GenerateOk(image), InferenceOk(r));
      var score := ConfusionScore(r.detectionCount, r.confidence);
      && resp.body.JObj? && "testResults" in resp.body.fields
      && var t := resp.body.fields["testResults"];
      && t.JObj? && "score" in t.fields && "success" in t.fields
      && t.fields["score"] == JNum(score as real)
      && t.fields["success"] == JBool(score > PassThreshold)
  {
  }

  /** A result with nobody detected scores 100 and passes. */
  lemma NobodyDetectedPasses(request: Json, image: Json, confidence: real, detections: Json, annotated: Json)
    requires request != JNull && HasRequiredFields(request)
    ensures var resp := Post(Some(request), GenerateOk(image), InferenceOk(InferenceResult(0, confidence, detections, annotated)));
      resp.body == JObj(map["success" := JBool(true),
        "testResults" := TestResults(InferenceResult(0, confidence, detections, annotated), image)])
      && TestResults(InferenceResult(0, confidence, detections, annotated), image).fields["score"] == JNum(100.0)
      && TestResults(InferenceResult(0, confidence, detections, annotated), image).fields["success"] == JBool(true)
  {
  }
}

=== FILE: text.dfy ===
/**
 * The JavaScript string operations the application relies on: `indexOf`,
 * `includes`, `split` with a non-empty separator, ASCII `toLowerCase`, and the
 * decimal rendering of a number inside a template literal.
 */
module Text {
  import opened Wrappers

  /** `pat` occurs in `s` starting at index `i`. */
  predicate OccursAt(s: string, pat: string, i: nat) {
    i + |pat| <= |s| && s[i..i + |pat|] == pat
  }

  /** `s.indexOf(pat, from)`: the first index at or after `from` where `pat` occurs. */
  function IndexOf(s: string, pat: string, from: nat): (r: Option<nat>)
    ensures r.Some? ==> from <= r.value && OccursAt(s, pat, r.value)
    ensures r.Some? ==> forall j :: from <= j < r.value ==> !OccursAt(s, pat, j)
    ensures r.None? ==> forall j :: from <= j ==> !OccursAt(s, pat, j)
    decreases |s| - from
  {
    if from + |pat| > |s| then None
    else if s[from..from + |pat|] == pat then Some(from)
    else IndexOf(s, pat, from + 1)
  }

  /** `s.includes(pat)`. */
  function Contains(s: string, pat: string): (r: bool)
    ensures r <==> exists i: nat :: OccursAt(s, pat, i)
  {
    IndexOf(s, pat, 0).Some?
  }

  /** Every string contains the empty string (so an empty search term matches everything). */
  lemma ContainsEmpty(s: string)
    ensures Contains(s, "")
  {
    assert OccursAt(s, "", 0);
  }

  /** `s.split(sep)` for a non-empty separator: the pieces between successive occurrences. */
  function Split(s: string, sep: string): (parts: seq<string>)
    requires |sep| > 0
    ensures |parts| >= 1
    decreases |s|
  {
    match IndexOf(s, sep, 0)
    case None => [s]
    case Some(i) => [s[..i]] + Split(s[i + |sep|..], sep)
  }

  /** `parts.join(sep)`. */
  function Join(parts: seq<string>, sep: string): string
    decreases |parts|
  {
    if |parts| == 0 then ""
    else if |parts| == 1 then parts[0]
    else parts[0] + sep + Join(parts[1..], sep)
  }

  /** Splitting loses nothing: joining the pieces with the separator gives back the string. */
  lemma {:induction false} JoinSplit(s: string, sep: string)
    requires |sep| > 0
    ensures Join(Split(s, sep), sep) == s
    decreases |s|
  {
    match IndexOf(s, sep, 0)
    case None =>
    case Some(i) =>
      var head, rest := s[..i], s[i + |sep|..];
      JoinSplit(rest, sep);
      JoinCons(head, Split(rest, sep), sep);
      Reassemble(s, sep, i);
  }

  /** Joining a list with a head puts the separator between the head and the rest. */
  lemma JoinCons(head: string, tail: seq<string>, sep: string)
    requires |tail| >= 1
    ensures Join([head] + tail, sep) == head + sep + Join(tail, sep)
  {
    assert ([head] + tail)[1..] == tail;
  }

  /** The string is the piece before an occurrence, the separator, and the piece after. */
  lemma Reassemble(s: string, sep: string, i: nat)
    requires OccursAt(s, sep, i)
    ensures s == s[..i] + sep + s[i + |sep|..]
  {
    assert s == s[..i] + s[i..i + |sep|] + s[i + |sep|..];
  }

  /** No piece of a split contains the separator. */
  lemma {:induction false} SplitPiecesFree(s: string, sep: string)
    requires |sep| > 0
    ensures forall k :: 0 <= k < |Split(s, sep)| ==> !Contains(Split(s, sep)[k], sep)
    decreases |s|
  {
    match IndexOf(s, sep, 0)
    case None =>
    case Some(i) =>
      var rest := s[i + |sep|..];
      SplitPiecesFree(rest, sep);
      var head := s[..i];
      forall j: nat | OccursAt(head, sep, j)
        ensures false
      {
        assert head[j..j + |sep|] == s[j..j + |sep|];
        assert OccursAt(s, sep, j);
      }
      assert Split(s, sep) == [head] + Split(rest, sep);
  }

  /** At the first occurrence, the split is the piece before it followed by the split of the rest. */
  lemma SplitAt(s: string, sep: string, i: nat)
    requires |sep| > 0 && IndexOf(s, sep, 0) == Some(i)
    ensures Split(s, sep) == [s[..i]] + Split(s[i + |sep|..], sep)
  {
  }

  /** Where the separator's first character does not occur in `a`, the split stops right after `a`. */
  lemma SplitAfter(a: string, sep: string, b: string)
    requires |sep| > 0 && sep[0] !in a
    ensures Split(a + sep + b, sep) == [a] + Split(b, sep)
  {
    var s := a + sep + b;
    assert OccursAt(s, sep, |a|) by {
      assert s[|a|..|a| + |sep|] == sep;
    }
    forall j: nat | j < |a|
      ensures !OccursAt(s, sep, j)
    {
      assert s[j..j + |sep|][0] == s[j] == a[j];
    }
    var r := IndexOf(s, sep, 0);
    assert r.Some? && r.value == |a|;
    assert s[|a| + |sep|..] == b;
    assert s[..|a|] == a;
  }

  /** A string without the separator's first character is one piece. */
  lemma SplitWhole(b: string, sep: string)
    requires |sep| > 0 && sep[0] !in b
    ensures Split(b, sep) == [b]
  {
    forall j: nat | j + |sep| <= |b|
      ensures !OccursAt(b, sep, j)
    {
      assert b[j..j + |sep|][0] == b[j];
    }
  }

  /** The first piece of a split is a prefix of the string, and all of it when there is no separator. */
  lemma SplitHead(s: string, sep: string)
    requires |sep| > 0
    ensures |Split(s, sep)[0]| <= |s| && Split(s, sep)[0] == s[..|Split(s, sep)[0]|]
    ensures |Split(s, sep)| == 1 <==> !Contains(s, sep)
    ensures |Split(s, sep)| == 1 ==> Split(s, sep)[0] == s
  {
  }

  /** ASCII `toLowerCase` of one character. */
  function LowerChar(c: char): char {
    if 'A' <= c <= 'Z' then (c as int + 32) as char else c
  }

  /** `s.toLowerCase()` on the ASCII letters. */
  function ToLower(s: string): (r: string)
    ensures |r| == |s|
    ensures forall i :: 0 <= i < |s| ==> r[i] == LowerChar(s[i])
    ensures forall i :: 0 <= i < |r| ==> !('A' <= r[i] <= 'Z')
  {
    seq(|s|, i requires 0 <= i < |s| => LowerChar(s[i]))
  }

  /** Lowering twice is lowering once. */
  lemma ToLowerIdempotent(s: string)
    ensures ToLower(ToLower(s)) == ToLower(s)
  {
  }

  predicate IsDigit(c: char) {
    '0' <= c <= '9'
  }

  function DigitChar(d: nat): (c: char)
    requires d < 10
    ensures IsDigit(c)
  {
    ('0' as int + d) as char
  }

  /** The decimal rendering of `n`, as `${n}` produces it. */
  function NatToString(n: nat): (s: string)
    ensures |s| >= 1
    ensures forall k :: 0 <= k < |s| ==> IsDigit(s[k])
    ensures n >= 10 <==> |s| >= 2
    decreases n
  {
    if n < 10 then [DigitChar(n)] else NatToString(n / 10) + [DigitChar(n % 10)]
  }

  /** Reading a string of decimal digits back as a number. */
  function ParseDigits(s: string): nat
    requires forall k :: 0 <= k < |s| ==> IsDigit(s[k])
    decreases |s|
  {
    if |s| == 0 then 0
    else ParseDigits(s[..|s| - 1]) * 10 + DigitValue(s[|s| - 1])
  }

  function DigitValue(c: char): (d: nat)
    requires IsDigit(c)
    ensures d < 10
  {
    if c == '0' then 0 else if c == '1' then 1 else if c == '2' then 2
    else if c == '3' then 3 else if c == '4' then 4 else if c == '5' then 5
    else if c == '6' then 6 else if c == '7' then 7 else if c == '8' then 8
    else 9
  }

  /** The decimal rendering is faithful: reading it back gives the number. */
  lemma {:induction false} ParseNatToString(n: nat)
    ensures ParseDigits(NatToString(n)) == n
    decreases n
  {
    if n >= 10 {
      ParseNatToString(n / 10);
      var s := NatToString(n);
      assert s[..|s| - 1] == NatToString(n / 10);
    }
  }

  /** Hence distinct numbers render differently. */
  lemma NatToStringInjective(m: nat, n: nat)
    requires NatToString(m) == NatToString(n)
    ensures m == n
  {
    ParseNatToString(m);
    ParseNatToString(n);
  }
}

=== FILE: typing.dfy ===
/**
 * The typing animation of the home page and the live demo page
 * (`TypingAnimation` in src/app/page.tsx and src/app/demo/page.tsx): the text
 * appears one character per timer step, with one word highlighted.
 */
module Typing {
  import opened Wrappers
  import opened Text

  /** The animation's state for one text. */
  class TypingAnimation {
    const text: string
    var displayed: string
    var index: nat

    /** What is shown is always the first `index` characters of the text. */
    ghost predicate Valid()
      reads this
    {
      index <= |text| && displayed == text[..index]
    }

    constructor (text: string)
      ensures Valid()
      ensures this.text == text && displayed == "" && index == 0
    {
      this.text := text;
      displayed := "";
      index := 0;
    }

    /** One timer step: the next character appears, until the whole text is shown. */
    method Step()
      requires Valid()
      modifies this`displayed, this`index
      ensures Valid()
      ensures old(index) < |text| ==> index == old(index) + 1 && displayed == old(displayed) + [text[old(index)]]
      ensures old(index) >= |text| ==> index == old(index) && displayed == old(displayed)
    {
      if index < |text| {
        assert text[..index + 1] == text[..index] + [text[index]];
        displayed := displayed + [text[index]];
        index := index + 1;
      }
    }

    /** The timer keeps firing until the animation ends with the whole text shown. */
    method Finish()
      requires Valid()
      modifies this`displayed, this`index
      ensures Valid() && displayed == text && index == |text|
    {
      while index < |text|
        invariant Valid()
        decreases |text| - index
      {
        Step();
      }
    }
  }

  /** What `renderText` shows: the text as is, or the text around a highlighted word. */
  datatype Rendered = Plain(text: string) | Highlighted(before: string, word: string, after: string)

  function Flatten(r: Rendered): string {
    match r
    case Plain(t) => t
    case Highlighted(b, w, a) => b + w + a
  }

  /** `renderText`: split on the word and highlight it between the first two pieces. */
  function RenderText(displayed: string, word: string): (r: Rendered)
    requires |word| > 0
    ensures r.Plain? <==> !Contains(displayed, word)
    ensures r.Plain? ==> r.text == displayed
    ensures r.Highlighted? ==> r.word == word && !Contains(r.before, word)
  {
    var parts := Split(displayed, word);
    SplitHead(displayed, word);
    SplitPiecesFree(displayed, word);
    if |parts| > 1 then Highlighted(parts[0], word, parts[1]) else Plain(displayed)
  }

  /**
   * The rendered text never shows more than was typed, and shows all of it
   * when the word occurs at most once; after a second occurrence the rest
   * is not shown.
   */
  lemma RenderedIsPrefix(displayed: string, word: string)
    requires |word| > 0
    ensures var f := Flatten(RenderText(displayed, word));
      |f| <= |displayed| && f == displayed[..|f|]
    ensures |Split(displayed, word)| <= 2 ==> Flatten(RenderText(displayed, word)) == displayed
  {
    var r := RenderText(displayed, word);
    match IndexOf(displayed, word, 0)
    case None =>
      assert !Contains(displayed, word);
      assert r == Plain(displayed);
    case Some(i) =>
      RenderedAroundFirst(displayed, word, i);
  }

  /**
   * The highlighted text is split at the first occurrence of the word: what
   * comes before is exactly the text before it, and what comes after runs up
   * to the next occurrence, or to the end when there is none.
   */
  lemma {:induction false} RenderedSplitsAtFirst(displayed: string, word: string, i: nat)
    requires |word| > 0 && IndexOf(displayed, word, 0) == Some(i)
    ensures var r := RenderText(displayed, word);
      var rest := displayed[i + |word|..];
      && r.Highlighted? && r.before == displayed[..i]
      && |r.after| <= |rest| && r.after == rest[..|r.after|]
      && (IndexOf(rest, word, 0) == Some(|r.after|) || (IndexOf(rest, word, 0).None? && r.after == rest))
  {
    var rest := displayed[i + |word|..];
    SplitAt(displayed, word, i);
    SplitHead(rest, word);
    match IndexOf(rest, word, 0)
    case None =>
      assert !Contains(rest, word);
    case Some(j) =>
      SplitAt(rest, word, j);
  }

  /** `RenderedIsPrefix` where the word first occurs at `i`. */
  lemma RenderedAroundFirst(displayed: string, word: string, i: nat)
    requires |word| > 0 && IndexOf(displayed, word, 0) == Some(i)
    ensures var f := Flatten(RenderText(displayed, word));
      |f| <= |displayed| && f == displayed[..|f|]
    ensures |Split(displayed, word)| <= 2 ==> Flatten(RenderText(displayed, word)) == displayed
  {
    var rest := displayed[i + |word|..];
    var tail := Split(rest, word);
    SplitAt(displayed, word, i);
    SplitHead(rest, word);
    var after := tail[0];
    assert RenderText(displayed, word) == Highlighted(displayed[..i], word, after);
    PrefixAroundWord(displayed, i, word, after);
  }

  /** The text up to an occurrence of the word, the word, and a prefix of what follows it make a prefix of the text. */
  lemma PrefixAroundWord(s: string, i: nat, word: string, after: string)
    requires OccursAt(s, word, i)
    requires |after| <= |s| - i - |word| && after == s[i + |word|..][..|after|]
    ensures s[..i] + word + after == s[..i + |word| + |after|]
    ensures |after| == |s| - i - |word| ==> s[..i] + word + after == s
  {
    assert s[..i + |word| + |after|] == s[..i] + s[i..i + |word|] + s[i + |word|..i + |word| + |after|];
  }

  /** Once the whole text is shown, a text with one occurrence of the word renders in full around it. */
  lemma OneOccurrenceRendersWhole(before: string, word: string, after: string)
    requires |word| > 0
    requires IndexOf(before + word + after, word, 0) == Some(|before|) && !Contains(after, word)
    ensures RenderText(before + word + after, word) == Highlighted(before, word, after)
  {
    var s := before + word + after;
    SplitAt(s, word, |before|);
    assert s[..|before|] == before;
    assert s[|before| + |word|..] == after;
    SplitHead(after, word);
  }

  /** The home page's headline, fully typed, shows "Invisible" highlighted between "Be " and " to AI". */
  lemma HomeHeadline()
    ensures RenderText("Be " + "Invisible" + " to AI", "Invisible") == Highlighted("Be ", "Invisible", " to AI")
  {
    HeadlineRenders("Be ", "Invisible", " to AI");
  }

  /** The live demo's headline, fully typed, shows "Detection" highlighted between "Live " and " Demo". */
  lemma DemoHeadline()
    ensures RenderText("Live " + "Detection" + " Demo", "Detection") == Highlighted("Live ", "Detection", " Demo")
  {
    HeadlineRenders("Live ", "Detection", " Demo");
  }

  /** A word whose first letter does not occur before it, followed by a tail shorter than itself, is highlighted in place. */
  lemma HeadlineRenders(before: string, word: string, after: string)
    requires |word| > 0 && word[0] !in before && |after| < |word|
    ensures RenderText(before + word + after, word) == Highlighted(before, word, after)
  {
    SplitAfter(before, word, after);
    SplitHead(after, word);
  }
}

=== FILE: wrappers.dfy ===
/** Optional values, standing for JavaScript's `null`/`undefined` results. */
module Wrappers {

  datatype Option<T> = None | Some(value: T) {

    /** The value, or `default` when there is none (JavaScript's `x ?? default`). */
    function GetOr(default: T): T {
      match this
      case Some(v) => v
      case None => default
    }
  }
}

=== FILE: zoom_viewer.dfy ===
/**
 * The zoom dialog for a saved design (src/components/DesignZoomModal.tsx): a
 * zoom level between 0.5 and 3 changed by buttons and the mouse wheel, and a
 * pan offset dragged with the mouse while zoomed in.
 *
 * The zoom is kept in tenths (5 to 30), so the steps of 0.5 and 0.1 are exact.
 */
module ZoomViewer {
  import opened JsMath
  import opened Designs

  const MinZoom: int := 5
  const MaxZoom: int := 30
  const NoZoom: int := 10
  const ButtonStep: int := 5
  const WheelStep: int := 1

  /** The zoom dialog's state. */
  class ZoomModal {
    var zoom: int
    var posX: int
    var posY: int
    var isDragging: bool
    var dragStartX: int
    var dragStartY: int

    ghost predicate Valid()
      reads this
    {
      MinZoom <= zoom <= MaxZoom
    }

    constructor ()
      ensures Valid()
      ensures zoom == NoZoom && posX == 0 && posY == 0 && !isDragging
    {
      zoom := NoZoom;
      posX, posY := 0, 0;
      isDragging := false;
      dragStartX, dragStartY := 0, 0;
    }

    /** The dialog opens: back to 100% and no pan. */
    method Open()
      modifies this`zoom, this`posX, this`posY
      ensures Valid()
      ensures zoom == NoZoom && posX == 0 && posY == 0
    {
      zoom := NoZoom;
      posX, posY := 0, 0;
    }

    /** `handleZoomIn`: half a step up, at most 3. */
    method ZoomIn()
      requires Valid()
      modifies this`zoom
      ensures Valid()
      ensures zoom == if old(zoom) + ButtonStep < MaxZoom then old(zoom) + ButtonStep else MaxZoom
    {
      zoom := if zoom + ButtonStep < MaxZoom then zoom + ButtonStep else MaxZoom;
    }

    /** `handleZoomOut`: half a step down, at least 0.5. */
    method ZoomOut()
      requires Valid()
      modifies this`zoom
      ensures Valid()
      ensures zoom == if old(zoom) - ButtonStep > MinZoom then old(zoom) - ButtonStep else MinZoom
    {
      zoom := if zoom - ButtonStep > MinZoom then zoom - ButtonStep else MinZoom;
    }

    /** `handleReset`. */
    method Reset()
      modifies this`zoom, this`posX, this`posY
      ensures Valid()
      ensures zoom == NoZoom && posX == 0 && posY == 0
    {
      zoom := NoZoom;
      posX, posY := 0, 0;
    }

    /** `handleWheel`: scrolling down zooms out a tenth, anything else zooms in a tenth, within [0.5, 3]. */
    method Wheel(deltaY: int)
      requires Valid()
      modifies this`zoom
      ensures Valid()
      ensures zoom == Clamp(old(zoom) + (if deltaY > 0 then -WheelStep else WheelStep), MinZoom, MaxZoom)
      ensures deltaY > 0 ==> zoom <= old(zoom)
      ensures deltaY <= 0 ==> zoom >= old(zoom)
    {
      var delta := if deltaY > 0 then -WheelStep else WheelStep;
      zoom := Clamp(zoom + delta, MinZoom, MaxZoom);
    }

    /** `handleMouseDown`: a drag starts only when zoomed in, remembering the pointer relative to the pan. */
    method MouseDown(clientX: int, clientY: int)
      modifies this`isDragging, this`dragStartX, this`dragStartY
      ensures zoom > NoZoom ==>
        isDragging && dragStartX == clientX - posX && dragStartY == clientY - posY
      ensures zoom <= NoZoom ==>
        isDragging == old(isDragging) && dragStartX == old(dragStartX) && dragStartY == old(dragStartY)
    {
      if zoom > NoZoom {
        isDragging := true;
        dragStartX, dragStartY := clientX - posX, clientY - posY;
      }
    }

    /** `handleMouseMove`: while dragging a zoomed-in view, the pan follows the pointer. */
    method MouseMove(clientX: int, clientY: int)
      modifies this`posX, this`posY
      ensures isDragging && zoom > NoZoom ==> posX == clientX - dragStartX && posY == clientY - dragStartY
      ensures !(isDragging && zoom > NoZoom) ==> posX == old(posX) && posY == old(posY)
    {
      if isDragging && zoom > NoZoom {
        posX, posY := clientX - dragStartX, clientY - dragStartY;
      }
    }

    /** `handleMouseUp`, also bound to the pointer leaving the view. */
    method MouseUp()
      modifies this`isDragging
      ensures !isDragging
    {
      isDragging := false;
    }
  }

  /** A press at one point and a move to another pans a zoomed-in view by the pointer's displacement. */
  method Pan(m: ZoomModal, fromX: int, fromY: int, toX: int, toY: int)
    requires m.Valid() && m.zoom > NoZoom
    modifies m
    ensures m.Valid() && m.zoom == old(m.zoom) && m.isDragging
    ensures m.posX == old(m.posX) + (toX - fromX) && m.posY == old(m.posY) + (toY - fromY)
  {
    m.MouseDown(fromX, fromY);
    m.MouseMove(toX, toY);
  }

  /** Moving back to the press point leaves the pan where it was. */
  method PressAndReturn(m: ZoomModal, x: int, y: int)
    requires m.Valid()
    modifies m
    ensures m.Valid() && m.zoom == old(m.zoom)
    ensures m.posX == old(m.posX) && m.posY == old(m.posY)
  {
    m.MouseDown(x, y);
    m.MouseMove(x, y);
  }

  /** The label under the zoom buttons: `Math.round(zoom * 100)` percent. */
  function ZoomPercent(zoom: int): (p: int)
    ensures p == Round(zoom as real / 10.0 * 100.0)
    ensures MinZoom <= zoom <= MaxZoom ==> 50 <= p <= 300
  {
    RoundInt(zoom * 10);
    assert zoom as real / 10.0 * 100.0 == (zoom * 10) as real;
    zoom * 10
  }

  /** How `DesignPreviewLarge` draws an element: at its stored position and size, with `getIconComponent`'s icon. */
  function PlaceLarge(e: Element): (p: Placement)
    ensures p.left == e.x && p.top == e.y && p.width == p.height == e.size && p.rotation == e.rotation
    ensures e.color == PatternColor <==> p.glyph.Pattern?
    ensures p.glyph.Pattern? ==> p.glyph.kind == e.kind
    ensures p.glyph.Solid? ==> p.glyph.icon == ZoomIcon(e.kind) && p.glyph.color == e.color
  {
    Placement(e.x, e.y, e.size, e.size, e.rotation,
      if e.color == PatternColor then Pattern(e.kind) else Solid(ZoomIcon(e.kind), e.color))
  }
}
